=== FILE: README.md ===
# Interaction-combinator engine — a Dafny model

This project models the core of the Symmetric Interaction Calculus evaluator: the
interaction-combinator engine of `src/net.rs`. It proves properties of that model.

A net is a flat buffer of 32-bit words (`nodes`) plus a LIFO free list (`reuse`).
Node `n` owns the four entries `4n .. 4n+3`:
- Entries 0–2 hold the port each of its ports is wired to.
- Entry 3 holds the node's kind tag: `ERA` = 0, `CON` = 1, `FAN` = 2.

A port handle packs an address and a slot as `(node << 2) | slot`.

The model is functional state-passing. Every operation takes a `Net` value and returns the new one.

- `codec.dfy` (`Codec`): the port codec `port`/`addr`/`slot`.
  - It is written arithmetically.
  - Lemmas prove it equal to the engine's shift, OR and mask. Those are modelled on unbounded naturals by `BitOr`, `BitAnd` and `ShiftRight`.
- `net.dfy` (`Nets`): the store and its primitives.
  - The primitives: `enter`, `kind`, `link`, and the allocator `new_node` (split into `Claim` and `Initialize`).
  - The well-formedness invariant `Valid`: whole nodes only, every port entry wired to a real port, every free address allocated.
- `rewrite.dfy` (`Rewriting`): the rewrite of an active pair, in the engine's exact order of reads and writes.
  - Annihilation joins the auxiliary neighbours pairwise and frees both nodes.
  - Duplication:
    - allocates two nodes;
    - hands the four outer neighbours to principal ports;
    - wires the four nodes together.
- `rewrite_laws.dfy` (`RewriteLaws`): what each rule does to the wiring, stated against the net before the rewrite.
- `reduce.dfy` (`Reducer`): the lazy sequential reducer.
  - `Step` is one iteration of its loop. It covers the cursor, the `warp` and `exit` stacks, the three branches and the counters.
  - `Run` is a fuel-bounded reference run.
  - `Reduce` is the loop as a method, proved to agree with `Run`.

`rewrite` declares its parameters as ports. The reducer passes addresses (`addr(prev)`, `addr(next)`), and the body uses them as addresses. The model takes addresses.

Three facts about the code shape the model:
- Kinds are plain 32-bit tags, compared as numbers. The model keeps them as natural numbers.
- The reduction loop has no bound and may diverge. The model runs it under fuel.
- The loop visits ports, and counts `loops`, even on a net where no rule ever fires. With fuel left, it runs no iteration exactly when entry 0 holds port 0 (`Reducer.RootIdle`, `Reducer.RootBusy`, `Reducer.Halting`). The one exception is a walk that starts at an active pair, where the empty exit stack stops it at once.

## Model

| member | source | states |
|---|---|---|
| Codec.Port | src/net.rs:46-48 | the handle's two low bits are the slot, the remaining bits are the address, and it fits in 32 bits when the address is below 2^30 |
| Codec.PortIsShiftOr | src/net.rs:46-48 | the handle equals the address shifted left by two with the slot OR-ed in, computed bit by bit |
| Codec.Addr | src/net.rs:51-53 | the address names the four-entry block that contains the port |
| Codec.AddrIsShift | src/net.rs:51-53 | the address is the handle shifted right by two bits |
| Codec.Slot | src/net.rs:56-58 | the slot is below 4 and, with the address, rebuilds the handle |
| Codec.SlotIsMask | src/net.rs:56-58 | the slot is the handle masked with 3, computed bit by bit |
| Codec.DecodePort | src/net.rs:46-58 | decoding a built port returns the address and slot it was built from (slot below 4) |
| Codec.EncodeParts | src/net.rs:46-58 | every 32-bit handle is the port built from its own address and slot |
| Nets.Enter | src/net.rs:60-63 | in a well-formed net, the value read at a real port is a real port, and the value read at a slot 3 is a 32-bit tag |
| Nets.Kind | src/net.rs:65-71 | in a well-formed net the kind tag read from slot 3 of a node is a 32-bit value |
| Nets.NewNodeEntry | src/net.rs:28-43 | allocation leaves every real port entry of the old buffer as it was, or self-looped |
| Nets.Link | src/net.rs:73-77 | afterwards the two ports enter each other; no other entry, the buffer length and the free list are unchanged |
| Nets.LinkValid | src/net.rs:73-77 | linking two real ports of a well-formed net keeps it well-formed |
| Nets.LinkThenEnter | src/net.rs:60-77 | entering either end after a link gives the other end, entering any other port gives what it gave before, and the argument order of a link does not matter |
| Nets.Claim | src/net.rs:30-37 | with a non-empty free list the last freed address is popped and the buffer is untouched; otherwise the buffer grows by one zeroed node whose address is the old length over 4 |
| Nets.Initialize | src/net.rs:38-41 | the three ports of the node self-loop and its slot 3 holds the kind; nothing else changes |
| Nets.NewNode | src/net.rs:28-43 | reuse case: LIFO address, free list shortened by one, length kept. Grow case: old length over 4, length plus 4, free list empty. In both: self-loops, kind set, every entry outside the node unchanged, well-formedness kept |
| Nets.NewNodeValid | src/net.rs:28-43 | allocating keeps the net well-formed |
| Nets.WireEnds | src/net.rs:60-63 | in a well-formed net, entering a real port yields a real port |
| Nets.PortWired | src/net.rs:60-63 | the three real ports of an allocated node, and the ports they are wired to, are real ports |
| Nets.KindIsWord | src/net.rs:65-71 | in a well-formed net the kind of an allocated node is a 32-bit value |
| Nets.FreeValid | src/net.rs:116-117 | pushing two allocated addresses on the free list keeps the net well-formed |
| Rewriting.JoinNeighbours | src/net.rs:110-115 | the ports wired to the two given ports end up wired to each other, and only those two entries change |
| Rewriting.Annihilate | src/net.rs:109-117 | the net stays well-formed, its length is unchanged and the free list gains exactly x then y |
| Rewriting.FreshPair | src/net.rs:119-122 | the two addresses a duplication receives: the top two of the free list, or its top and then a fresh node, or two fresh nodes (shown to be the allocator's results by `Rewriting.PairShape`) |
| Rewriting.AllocatePair | src/net.rs:119-122 | the two new addresses are the two the allocator hands out in order; when a ≠ b, a has the kind of x; when a ≠ y, b has the kind of y; only the two new nodes' entries change; the free list loses what it supplied |
| Rewriting.PairShape | src/net.rs:119-122 | the two allocations take the last two free addresses, or the last one and a grown node, or two grown nodes, with the matching length and free list |
| Rewriting.PairKinds | src/net.rs:119-122 | the first allocated node carries the kind read from x when the two nodes differ, the second carries the kind read from y when the first node is not y (the first allocation rewrote y otherwise), and entries outside them are unchanged |
| Rewriting.Hand | src/net.rs:123-130 | the port on the other side of `from` ends up wired to `to`, and only those two entries change |
| Rewriting.Reconnect | src/net.rs:123-130 | the four hand-overs keep the net well-formed and its length and free list unchanged |
| Rewriting.Interconnect | src/net.rs:131-134 | the four auxiliary links keep the net well-formed and its length and free list unchanged |
| Rewriting.Duplicate | src/net.rs:118-134 | duplication pushes nothing on the free list, consumes up to two free addresses and grows the buffer by the nodes the free list could not supply |
| Rewriting.Rewrite | src/net.rs:107-136 | equal kinds: length unchanged and the free list gains x then y. Different kinds: free list popped by up to two and buffer grown by the rest. Well-formedness kept in both |
| Rewriting.RewriteGrowth | src/net.rs:107-136 | a rewrite never shrinks the buffer and grows it by at most two nodes |
| Rewriting.RoomForBoth | src/net.rs:119-122 | room for two nodes leaves room for the first allocation and then for the second |
| RewriteLaws.AnnihilationRewires | src/net.rs:109-117 | only the four former neighbours' entries change. When they are distinct and the first pair avoids the slot-2 ports, the neighbour of x.1 is wired to that of y.1 and the neighbour of x.2 to that of y.2 |
| RewriteLaws.AnnihilationThroughLoopOfY | src/net.rs:109-115 | when y's two auxiliary ports are wired to each other and x's two neighbours lie outside x and y, annihilation wires x's two neighbours to each other |
| RewriteLaws.AnnihilationThroughLoopOfX | src/net.rs:109-115 | when x's two auxiliary ports are wired to each other and y's two neighbours lie outside x and y, annihilation wires y's two neighbours to each other |
| RewriteLaws.DuplicationRewires | src/net.rs:118-134 | with a, b, x, y distinct: a and b are allocated with the kinds of x and y, and a.1-b.1, a.2-y.1, x.1-b.2, x.2-y.2 are linked |
| RewriteLaws.DuplicationMovesNeighbours | src/net.rs:123-130 | with a, b, x and y distinct, and distinct outer neighbours outside the four nodes, the former neighbours of x.1, x.2, y.1, y.2 end up wired to b.0, y.0, a.0, x.0 |
| RewriteLaws.DuplicationThroughLoopOfY | src/net.rs:118-134 | the eraser case: with a, b, x, y distinct, y's two auxiliary ports wired to each other and x's neighbours two distinct ports outside the four nodes, x's neighbours end up on b.0 and y.0, and a.0 is wired to x.0 |
| RewriteLaws.DuplicationThroughLoopOfX | src/net.rs:118-134 | the mirror eraser case: with a, b, x, y distinct, x's two auxiliary ports wired to each other and y's neighbours two distinct ports outside the four nodes, b.0 is wired to y.0, and y's neighbours end up on a.0 and x.0 |
| RewriteLaws.DuplicationFrame | src/net.rs:118-134 | for every pair of different kinds, no entry outside x, y and the two new nodes changes except the four former neighbours of x.1, x.2, y.1 and y.2, however those neighbours overlap |
| RewriteLaws.InterconnectLinks | src/net.rs:131-134 | with the four nodes distinct, the last four links all hold at the end |
| RewriteLaws.InterconnectFrame | src/net.rs:131-134 | the last four links write only auxiliary ports of the four nodes |
| RewriteLaws.InterconnectKeepsKinds | src/net.rs:131-134 | the last four links keep every kind tag |
| RewriteLaws.InterconnectKeepsLink | src/net.rs:131-134 | a link between a principal port and a port outside the four nodes survives the last four links |
| RewriteLaws.ReconnectKeepsKinds | src/net.rs:123-130 | the four hand-overs keep every kind tag |
| RewriteLaws.ReconnectReads | src/net.rs:123-129 | each hand-over reads the outer neighbour the net had before the first one, when the neighbours are apart |
| RewriteLaws.ReconnectLinks | src/net.rs:123-130 | when the four nodes are distinct and the four outer neighbours are distinct ports outside them, after the four hand-overs b.0, y.0, a.0 and x.0 are wired to the former neighbours of x.1, x.2, y.1 and y.2 |
| RewriteLaws.ReconnectFrame | src/net.rs:123-130 | when the four nodes are distinct and the four outer neighbours are distinct ports outside them, the four hand-overs change only the principal ports of the four nodes and the four moved wire ends |
| RewriteLaws.ReconnectThroughLoopOfY | src/net.rs:123-130 | with the four nodes distinct, y's auxiliary ports wired to each other, and x's two neighbours distinct ports outside the four nodes, the four hand-overs wire x's neighbours to b.0 and y.0, and a.0 to x.0 |
| RewriteLaws.ReconnectThroughLoopOfX | src/net.rs:123-130 | with the four nodes distinct, x's auxiliary ports wired to each other, and y's two neighbours distinct ports outside the four nodes, the four hand-overs wire b.0 to y.0, and y's neighbours to a.0 and x.0 |
| RewriteLaws.HandKeepsLink | src/net.rs:123-130 | a link survives a hand-over that writes neither of its ends |
| RewriteLaws.AllocationKeepsOuter | src/net.rs:119-123 | when the two new nodes, x and y are four distinct nodes, allocating the new nodes leaves the auxiliary ports of x and y as they were |
| Reducer.Running | src/net.rs:87 | the loop guard: `next` is not port 0 or the warp stack is not empty |
| Reducer.IsRedex | src/net.rs:90 | the active-pair test: the cursor and the port it is wired to are both principal ports, and the latter is not on node 0 |
| Reducer.Cursor | src/net.rs:88 | the iteration's port is `next`, or the port behind the last saved warp entry when `next` is 0, and it is a real port |
| Reducer.Warp | src/net.rs:88 | the warp stack loses its top entry exactly when `next` is 0, and is otherwise unchanged |
| Reducer.Prev | src/net.rs:89 | the port on the other side of the cursor is a real port |
| Reducer.SiblingWired | src/net.rs:95-100 | every port of a well-formed buffer lies in a node whose three real ports and their far ends are real ports, so the descend and ascend reads stay in bounds |
| Reducer.Back | src/net.rs:92 | the resume port, read before the rewrite, is a real port |
| Reducer.Fire | src/net.rs:90-94 | at an active pair the net becomes the rewrite of (addr(prev), addr(next)), the exit stack loses its top, the warp stack is as the cursor left it, the walk resumes at the port wired, in the rewritten net, to the resume port read before the rewrite, the buffer grows by at most two nodes and the loop invariant holds |
| Reducer.Resume | src/net.rs:92-94 | the exit stack loses its top, the net is the rewritten one, and `next` is the port wired to the saved resume port in that net |
| Reducer.Descend | src/net.rs:95-97 | at a principal port that is not in an active pair, the node's slot-2 port is pushed on warp, the walk moves to the port wired to the node's slot 1, and the net and exit stack are unchanged |
| Reducer.Ascend | src/net.rs:98-100 | at an auxiliary port its slot is pushed on exit, the walk moves to the port wired to the node's slot 0, and the net and warp stack are unchanged |
| Reducer.Step | src/net.rs:87-102 | one iteration keeps the loop invariant, adds one to loops, adds one to rules exactly at an active pair, changes the net only by that rewrite and grows it by at most two nodes |
| Reducer.StepCounts | src/net.rs:87-102 | an iteration counts itself and at most one rule, leaves the other counters, and touches the net only when it counts a rule |
| Reducer.ReadyToStep | src/net.rs:88-93 | with room for two nodes and a non-empty exit stack at an active pair, an iteration stays in bounds |
| Reducer.Halting | src/net.rs:87-92 | the loop goes on exactly when its guard holds, fuel is left, and the iteration would not pop an empty exit stack at an active pair; it ends normally exactly when the guard fails |
| Reducer.Run | src/net.rs:87-103 | every state the bounded loop reaches satisfies the loop invariant |
| Reducer.RunCounts | src/net.rs:81-104 | over a run betas, dupls and annis do not move, loops grows by at most the fuel, rules by at most loops, the net changes only if a rule fired and grows by at most two nodes per rule |
| Reducer.RunEnds | src/net.rs:87-104 | the run ends normally exactly when the loop guard fails, runs out of fuel only after that many iterations, and stops on an empty exit stack only at an active pair |
| Reducer.RunSettled | src/net.rs:87-103 | a run that stopped before its fuel ran out gives the same state and outcome with any larger fuel |
| Reducer.Start | src/net.rs:81-84 | the loop starts with `next` the port in entry 0, both stacks empty and zero counters, satisfying the invariant |
| Reducer.RootIdle | src/net.rs:84-87 | when entry 0 holds port 0, no iteration runs and the net and all-zero counters come back unchanged |
| Reducer.RootBusy | src/net.rs:84-90 | when entry 0 holds a real port and fuel is left, at least one iteration runs, unless the walk starts at an active pair and the empty exit stack stops it at once |
| Reducer.RunFromStart | src/net.rs:80-105 | a run from the start state reports betas = dupls = annis = 0 and rules ≤ loops ≤ fuel, and keeps the net unless a rule fired |
| Reducer.Reduce | src/net.rs:80-105 | the loop returns a well-formed net and zero betas, dupls and annis, with rules ≤ loops. It is idle when entry 0 is 0, leaves the net unchanged without rules, and agrees with the reference run |

## Left out

- The repository's example driver `example.rs` and the term module (parsing, the term-to-net compiler, printing): they are I/O and code outside the engine, and that code is not part of this model.
- Reducer.Reduce: takes a `fuel` bound on the number of iterations. The engine's loop is unbounded and may diverge on terms without a normal form. No claim is made about normal forms or confluence.
- Reducer.Reduce: the engine panics when the `exit` stack is empty at an active pair. The model stops there with the `EmptyExit` outcome; `Reducer.Step` requires a non-empty stack at an active pair. The `warp` pop needs no such case: the loop guard guarantees it.
- Reducer.Reduce: requires `|nodes| + 8 * fuel <= 2^32`, so that every duplication stays addressable by 32-bit ports. The engine does not guard this: `len as u32` and `node << 2` would silently wrap.
- Codec.Port: requires the address below 2^30 and the slot below 4. Larger addresses wrap in the 32-bit shift, and the model does not describe that wrap-around.
- Reducer.Step: the `loops` and `rules` counters are unbounded naturals. The engine's `u32` `+=` overflow is not modelled.
- Rewriting.Rewrite: requires the whole net to be well-formed (`Valid`). That is stronger than the in-bounds reads and writes the engine needs, and it lets every read stay in the buffer without per-access preconditions. Out-of-bounds indexing, which panics in the engine, is thus excluded by precondition rather than modelled.
- RewriteLaws.AnnihilationRewires: states the two joined pairs only when the four former neighbours are distinct and the first pair avoids the slot-2 ports. Otherwise the second link reads an entry the first one wrote. The case where one node's auxiliary ports are wired to each other is stated by `RewriteLaws.AnnihilationThroughLoopOfY` and `RewriteLaws.AnnihilationThroughLoopOfX`. Other overlaps, such as x and y sharing a neighbour or both nodes' auxiliary ports looping, get no closed-form statement; `Rewriting.Annihilate` still follows the engine's order exactly.
- Rewriting.Annihilate: its own contract states the net's well-formedness, length and free list. The wiring it performs is stated by RewriteLaws.AnnihilationRewires.
- Rewriting.Reconnect: its own contract states only well-formedness, length and free list. The wiring is stated by RewriteLaws.ReconnectLinks, RewriteLaws.ReconnectFrame and RewriteLaws.ReconnectReads, under the `OuterApart` condition.
- Rewriting.Interconnect: its own contract states only well-formedness, length and free list. The four links are stated by RewriteLaws.InterconnectLinks when the four nodes are distinct, and the frame by RewriteLaws.InterconnectFrame.
- Rewriting.Duplicate: its own contract states well-formedness and the allocator's effect. The wiring is stated by the three RewriteLaws.Duplication lemmas.
- RewriteLaws.ReconnectLinks: states where the outer neighbours go only under `OuterApart`: the four nodes distinct, and the four outer neighbours distinct ports outside them. When neighbours overlap, a later hand-over reads an entry an earlier one wrote.
- RewriteLaws.ReconnectFrame: states its frame only under the same `OuterApart` condition. The unconditional frame of the whole duplication is `RewriteLaws.DuplicationFrame`.
- RewriteLaws.DuplicationRewires: states the internal links only when a, b, x and y are distinct.
- RewriteLaws.DuplicationMovesNeighbours: states where the outer neighbours end up only when a, b, x and y are four distinct nodes and the neighbours are four distinct ports outside them. The case where one node's auxiliary ports are wired to each other, as every eraser's are, is stated by `RewriteLaws.DuplicationThroughLoopOfY` and `RewriteLaws.DuplicationThroughLoopOfX`. Neighbours shared between x and y, ports of x wired to ports of y, a new node that coincides with x or y, and a = b (the free list can hold an address twice after a node whose principal port loops to itself is rewritten) get no closed-form statement; `RewriteLaws.DuplicationFrame` still bounds what changes in every case.
- The `betas`, `dupls` and `annis` counters exist in the engine but are never incremented. The model proves they stay zero.
- The kind tags are not restricted to `ERA`, `CON` and `FAN`. The engine stores and compares arbitrary 32-bit tags, and so does the model.
- Memory allocation failure of the growing buffer, and the Rust derives (`Clone`, `Debug`) and lint attributes, are not modelled.

=== FILE: codec.dfy ===
/** Port codec of the interaction-combinator engine.

A port is a single 32-bit handle packing a node address and a slot index:
`(node << 2) | slot`. Slots 0, 1 and 2 are the principal and the two
auxiliary ports; slot 3 is where the node keeps its kind tag.

The bitwise operators the engine uses are modelled on unbounded naturals
(`BitOr`, `BitAnd`), so that the codec functions below are written with the
same operators as the engine and their arithmetic meaning is proved rather
than assumed. */
module Codec {

  /** Number of distinct 32-bit unsigned values. */
  const WordLimit: nat := 0x1_0000_0000

  /** Number of node addresses whose ports fit in a 32-bit handle. */
  const NodeLimit: nat := 0x4000_0000

  /** Bitwise OR of two naturals, one bit at a time from the least
      significant end. */
  function BitOr(a: nat, b: nat): (r: nat)
    ensures a <= r && b <= r
    ensures r <= a + b
    decreases a
  {
    if a == 0 then b
    else if b == 0 then a
    else 2 * BitOr(a / 2, b / 2) + (if a % 2 == 1 || b % 2 == 1 then 1 else 0)
  }

  /** Bitwise AND of two naturals, one bit at a time from the least
      significant end. */
  function BitAnd(a: nat, b: nat): (r: nat)
    ensures r <= a && r <= b
    decreases a
  {
    if a == 0 || b == 0 then 0
    else 2 * BitAnd(a / 2, b / 2) + (if a % 2 == 1 && b % 2 == 1 then 1 else 0)
  }

  /** OR-ing a slot below 4 into a multiple of 4 is addition: the two
      lowest bits of `4 * k` are clear. */
  lemma OrIntoClearBits(k: nat, s: nat)
    requires s < 4
    ensures BitOr(4 * k, s) == 4 * k + s
  {
    if k != 0 && s != 0 {
      assert BitOr(4 * k, s) == 2 * BitOr(2 * k, s / 2) + s % 2;
      if s / 2 != 0 {
        assert BitOr(2 * k, s / 2) == 2 * BitOr(k, 0) + (s / 2) % 2;
      }
    }
  }

  /** Masking with 3 keeps exactly the two lowest bits. */
  lemma AndThreeIsMod4(p: nat)
    ensures BitAnd(p, 3) == p % 4
  {
    if p != 0 {
      assert BitAnd(p, 3) == 2 * BitAnd(p / 2, 1) + (if p % 2 == 1 then 1 else 0);
      if p / 2 != 0 {
        assert BitAnd(p / 2, 1) == 2 * BitAnd(p / 4, 0) + (if (p / 2) % 2 == 1 then 1 else 0);
      }
    }
  }

  /** Shifting right by `k` bits: halving `k` times, rounding down. */
  function ShiftRight(p: nat, k: nat): (r: nat)
    ensures r <= p
  {
    if k == 0 then p else ShiftRight(p / 2, k - 1)
  }

  /** Builds the port handle of slot `slot` of node `node`. The address must
      be small enough that `node << 2` does not overflow 32 bits. The handle
      is written arithmetically; `PortIsShiftOr` shows it is the engine's
      `(node << 2) | slot`. */
  function Port(node: nat, slot: nat): (r: nat)
    requires node < NodeLimit && slot < 4
    ensures r % 4 == slot && r / 4 == node
    ensures r < WordLimit
  {
    4 * node + slot
  }

  /** Node address of a port: the handle with its two slot bits dropped. */
  function Addr(p: nat): (r: nat)
    ensures 4 * r <= p < 4 * r + 4
  {
    p / 4
  }

  /** Slot of a port: the handle's two lowest bits. */
  function Slot(p: nat): (r: nat)
    ensures r < 4
    ensures p == 4 * Addr(p) + r
  {
    p % 4
  }

  /** The handle is the address shifted left by two bits with the slot OR-ed
      into the freed bits. */
  lemma PortIsShiftOr(node: nat, slot: nat)
    requires node < NodeLimit && slot < 4
    ensures Port(node, slot) == BitOr(node * 4, slot)
  {
    OrIntoClearBits(node, slot);
  }

  /** The address is the handle shifted right by two bits. */
  lemma AddrIsShift(p: nat)
    ensures Addr(p) == ShiftRight(p, 2)
  {
    assert ShiftRight(p, 2) == ShiftRight(p / 2, 1) == ShiftRight(p / 2 / 2, 0);
  }

  /** The slot is the handle masked with 3. */
  lemma SlotIsMask(p: nat)
    ensures Slot(p) == BitAnd(p, 3)
  {
    AndThreeIsMod4(p);
  }

  /** Decoding a freshly built port gives back its address and slot. */
  lemma DecodePort(node: nat, slot: nat)
    requires node < NodeLimit && slot < 4
    ensures Addr(Port(node, slot)) == node
    ensures Slot(Port(node, slot)) == slot
  {
  }

  /** Every 32-bit handle is the port of its own address and slot. */
  lemma EncodeParts(p: nat)
    requires p < WordLimit
    ensures Addr(p) < NodeLimit
    ensures Port(Addr(p), Slot(p)) == p
  {
  }
}

=== FILE: net.dfy ===
/** The node store: a flat buffer of wires plus a LIFO free list, with the
wiring primitives `Enter`/`Link`, the kind lookup and the allocator.

Node `n` occupies entries `4n .. 4n+3` of `nodes`. Entries `4n`, `4n+1` and
`4n+2` hold the port each of its three ports is wired to; entry `4n+3` holds
its kind tag. The store is a value: every operation returns the new net. */
module Nets {
  import opened Codec

  /** Kind tags stored in slot 3. */
  const ERA: nat := 0
  const CON: nat := 1
  const FAN: nat := 2

  datatype Net = Net(nodes: seq<nat>, reuse: seq<nat>)

  /** A net together with the address the allocator handed out. */
  datatype Alloc = Alloc(net: Net, node: nat)

  /** `v` can be stored as the far end of a wire: it names one of the three
      real ports of an allocated node. */
  predicate IsWire(net: Net, v: nat)
  {
    v < |net.nodes| && v % 4 != 3
  }

  /** Well-formedness the engine relies on to never index outside the buffer:
      whole nodes only, addressable by 32-bit handles, every port entry wired
      to a real port, every kind tag a 32-bit value, every free address
      allocated. */
  predicate Valid(net: Net)
  {
    && |net.nodes| % 4 == 0
    && |net.nodes| <= WordLimit
    && (forall i | 0 <= i < |net.nodes| :: EntryOk(net, i))
    && (forall j | 0 <= j < |net.reuse| :: Allocated(net, net.reuse[j]))
  }

  /** Entry `i` holds a 32-bit kind tag if it is a slot 3, and the far end
      of a wire otherwise. */
  predicate EntryOk(net: Net, i: nat)
    requires i < |net.nodes|
  {
    if i % 4 == 3 then net.nodes[i] < WordLimit else IsWire(net, net.nodes[i])
  }

  /** `p` and `q` are wired to each other in both directions. */
  predicate Linked(net: Net, p: nat, q: nat)
  {
    p < |net.nodes| && q < |net.nodes| && net.nodes[p] == q && net.nodes[q] == p
  }

  /** The node at `n` exists in a buffer addressable by 32-bit ports. */
  predicate Allocated(net: Net, n: nat)
  {
    |net.nodes| <= WordLimit && 4 * n + 4 <= |net.nodes|
  }

  /** The port on the other side of the wire at `p`. In a valid net it is
      a real port (or, read at a slot 3, a 32-bit kind tag). */
  function Enter(net: Net, p: nat): (r: nat)
    requires p < |net.nodes|
    ensures Valid(net) && p % 4 != 3 ==> IsWire(net, r)
    ensures Valid(net) && p % 4 == 3 ==> r < WordLimit
  {
    assert Valid(net) ==> EntryOk(net, p);
    net.nodes[p]
  }

  /** The kind tag of node `n`: in a valid net a 32-bit value. */
  function Kind(net: Net, n: nat): (r: nat)
    requires Allocated(net, n)
    ensures Valid(net) ==> r < WordLimit
  {
    assert Valid(net) ==> EntryOk(net, Port(n, 3));
    net.nodes[Port(n, 3)]
  }

  /** Wires `a` and `b` to each other: first `a`'s entry, then `b`'s. */
  function Link(net: Net, a: nat, b: nat): (r: Net)
    requires a < |net.nodes| && b < |net.nodes|
    ensures Linked(r, a, b)
    ensures |r.nodes| == |net.nodes| && r.reuse == net.reuse
    ensures forall i | 0 <= i < |net.nodes| && i != a && i != b :: r.nodes[i] == net.nodes[i]
  {
    net.(nodes := net.nodes[a := b][b := a])
  }

  /** Linking two wire ends of a valid net keeps it valid. */
  lemma LinkValid(net: Net, a: nat, b: nat)
    requires Valid(net) && IsWire(net, a) && IsWire(net, b)
    ensures Valid(Link(net, a, b))
  {
    var r := Link(net, a, b);
    forall i | 0 <= i < |r.nodes|
      ensures EntryOk(r, i)
    {
      assert EntryOk(net, i);
    }
  }

  /** The allocator can serve a request: either the free list offers an
      allocated address, or the buffer can grow by one node without
      outgrowing 32-bit handles. */
  predicate CanAllocate(net: Net)
  {
    && |net.nodes| <= WordLimit
    && if |net.reuse| == 0 then |net.nodes| + 4 <= WordLimit
       else Allocated(net, net.reuse[|net.reuse| - 1])
  }

  /** First half of the allocator: obtains an address, either the most
      recently freed one or a fresh node appended as four zeroed entries. */
  function Claim(net: Net): (r: Alloc)
    requires CanAllocate(net)
    ensures |net.reuse| == 0 ==>
              && r.node == |net.nodes| / 4
              && r.net.nodes == net.nodes + [0, 0, 0, 0]
              && r.net.reuse == []
    ensures |net.reuse| > 0 ==>
              && r.node == net.reuse[|net.reuse| - 1]
              && r.net == net.(reuse := net.reuse[..|net.reuse| - 1])
    ensures Allocated(r.net, r.node)
  {
    if |net.reuse| == 0 then
      Alloc(net.(nodes := net.nodes + [0, 0, 0, 0]), |net.nodes| / 4)
    else
      Alloc(net.(reuse := net.reuse[..|net.reuse| - 1]), net.reuse[|net.reuse| - 1])
  }

  /** Second half of the allocator: self-loops the three ports of `n` and
      stores its kind, leaving every other entry alone. */
  function Initialize(net: Net, n: nat, kind: nat): (r: Net)
    requires Allocated(net, n)
    ensures |r.nodes| == |net.nodes| && r.reuse == net.reuse
    ensures forall s | 0 <= s < 3 :: r.nodes[Port(n, s)] == Port(n, s)
    ensures r.nodes[Port(n, 3)] == kind
    ensures forall i | 0 <= i < |net.nodes| && (i < 4 * n || 4 * n + 4 <= i) ::
              r.nodes[i] == net.nodes[i]
  {
    net.(nodes := net.nodes[Port(n, 0) := Port(n, 0)]
                           [Port(n, 1) := Port(n, 1)]
                           [Port(n, 2) := Port(n, 2)]
                           [Port(n, 3) := kind])
  }

  /** Allocates a node of kind `kind`: pops the most recently freed address
      if there is one, otherwise grows the buffer by four zeroed entries;
      then self-loops the three ports and stores the kind. */
  function NewNode(net: Net, kind: nat): (r: Alloc)
    requires CanAllocate(net) && kind < WordLimit
    ensures |net.reuse| == 0 ==>
              && r.node == |net.nodes| / 4
              && |r.net.nodes| == |net.nodes| + 4
              && r.net.reuse == []
    ensures |net.reuse| > 0 ==>
              && r.node == net.reuse[|net.reuse| - 1]
              && r.net.reuse == net.reuse[..|net.reuse| - 1]
              && |r.net.nodes| == |net.nodes|
    ensures Allocated(r.net, r.node)
    ensures forall s | 0 <= s < 3 :: r.net.nodes[Port(r.node, s)] == Port(r.node, s)
    ensures Kind(r.net, r.node) == kind
    ensures forall i | 0 <= i < |net.nodes| && (i < 4 * r.node || 4 * r.node + 4 <= i) ::
              r.net.nodes[i] == net.nodes[i]
    ensures Valid(net) ==> Valid(r.net)
  {
    var c := Claim(net);
    var r := Alloc(Initialize(c.net, c.node, kind), c.node);
    if Valid(net) then NewNodeValid(net, kind, c, r); r else r
  }

  lemma NewNodeValid(net: Net, kind: nat, c: Alloc, r: Alloc)
    requires Valid(net) && CanAllocate(net) && kind < WordLimit
    requires c == Claim(net) && r == Alloc(Initialize(c.net, c.node, kind), c.node)
    ensures Valid(r.net)
  {
    var n := c.node;
    forall i | 0 <= i < |r.net.nodes|
      ensures EntryOk(r.net, i)
    {
      if 4 * n <= i < 4 * n + 4 {
        assert i == Port(n, i - 4 * n);
      } else {
        assert EntryOk(net, i);
      }
    }
  }

  /** Allocation leaves every real port entry of the old buffer as it was,
      or self-looped. */
  lemma NewNodeEntry(net: Net, kind: nat, p: nat)
    requires CanAllocate(net) && kind < WordLimit
    requires p < |net.nodes| && p % 4 != 3
    ensures var r := NewNode(net, kind);
            r.net.nodes[p] == net.nodes[p] || r.net.nodes[p] == p
  {
    var r := NewNode(net, kind);
    if 4 * r.node <= p < 4 * r.node + 4 {
      assert p == Port(r.node, p % 4);
    }
  }

  /** In a valid net a real port of an allocated node is itself a wire end,
      and so is whatever it is wired to. */
  lemma PortWired(net: Net, n: nat)
    requires Valid(net) && Allocated(net, n)
    ensures forall s | 0 <= s < 3 :: IsWire(net, Port(n, s)) && IsWire(net, Enter(net, Port(n, s)))
  {
    assert EntryOk(net, Port(n, 0));
    assert EntryOk(net, Port(n, 1));
    assert EntryOk(net, Port(n, 2));
  }

  /** In a valid net whatever a wire end is wired to is a wire end. */
  lemma WireEnds(net: Net, p: nat)
    requires Valid(net) && IsWire(net, p)
    ensures IsWire(net, Enter(net, p))
  {
    assert EntryOk(net, p);
  }

  /** In a valid net every kind tag is a 32-bit value. */
  lemma KindIsWord(net: Net, n: nat)
    requires Valid(net) && Allocated(net, n)
    ensures Kind(net, n) < WordLimit
  {
    assert EntryOk(net, Port(n, 3));
  }

  /** Pushing allocated addresses on the free list keeps a net valid. */
  lemma FreeValid(net: Net, x: nat, y: nat)
    requires Valid(net) && Allocated(net, x) && Allocated(net, y)
    ensures Valid(net.(reuse := net.reuse + [x, y]))
  {
    var r := net.(reuse := net.reuse + [x, y]);
    forall i | 0 <= i < |r.nodes|
      ensures EntryOk(r, i)
    {
      assert EntryOk(net, i);
    }
  }

  /** Linking two ports makes each the other's `Enter`, whatever the order of
      the arguments; `Enter` itself reads the same value before and after
      a link elsewhere. */
  lemma LinkThenEnter(net: Net, a: nat, b: nat, p: nat)
    requires a < |net.nodes| && b < |net.nodes| && p < |net.nodes|
    ensures Enter(Link(net, a, b), a) == b
    ensures Enter(Link(net, a, b), b) == a
    ensures p != a && p != b ==> Enter(Link(net, a, b), p) == Enter(net, p)
    ensures Link(net, a, b) == Link(net, b, a)
  {
  }
}

=== FILE: reduce.dfy ===
/** The sequential lazy reducer. It walks the net from the port stored in
entry 0, descending through principal and auxiliary ports, remembers the
auxiliary slots it came through on an `exit` stack and the second auxiliary
ports still to visit on a `warp` stack, and fires the interaction rule whenever
it stands on an active pair.

The loop is modelled one iteration at a time (`Step`), run for at most `fuel`
iterations (`Run`), and implemented as a method with the same loop (`Reduce`). */
module Reducer {
  import opened Codec
  import opened Nets
  import opened Rewriting

  /** Counters the reducer reports. Only `loops` and `rules` are ever
      incremented; the other three are always zero. */
  datatype Stats = Stats(loops: nat, rules: nat, betas: nat, dupls: nat, annis: nat)

  /** The state of the reduction loop: the net, the two stacks and the port
      the walk is at (0 standing for "none"). */
  datatype Machine = Machine(net: Net, warp: seq<nat>, exit: seq<nat>, next: nat, stats: Stats)

  /** How a bounded run ended: the loop guard failed; the fuel ran out first;
      or the walk reached an active pair with nothing on the exit stack, the
      point where the engine's `unwrap` of the empty stack would panic. */
  datatype Outcome = Normal | OutOfFuel | EmptyExit

  const NoStats := Stats(0, 0, 0, 0, 0)

  /** The loop guard: there is a port to visit now, or one saved for later. */
  predicate Running(m: Machine)
  {
    m.next > 0 || |m.warp| > 0
  }

  /** What holds of every state the loop passes through: the net is valid,
      `next` and every saved port are wire ends, and the exit stack holds
      auxiliary slots. */
  predicate Sane(m: Machine)
  {
    && Valid(m.net)
    && IsWire(m.net, m.next)
    && (forall j | 0 <= j < |m.warp| :: IsWire(m.net, m.warp[j]))
    && (forall j | 0 <= j < |m.exit| :: m.exit[j] == 1 || m.exit[j] == 2)
  }

  /** The port of a valid buffer lies in an allocated node. */
  lemma AddrAllocated(net: Net, p: nat)
    requires Valid(net) && p < |net.nodes|
    ensures Allocated(net, Addr(p))
  {
  }

  /** The three real ports of the node a port belongs to are wire ends, and
      so are the ports they are wired to. */
  lemma SiblingWired(net: Net, p: nat)
    requires Valid(net) && p < |net.nodes|
    ensures Addr(p) < NodeLimit
    ensures forall s | 0 <= s < 3 :: IsWire(net, Port(Addr(p), s)) && IsWire(net, Enter(net, Port(Addr(p), s)))
  {
    AddrAllocated(net, p);
    PortWired(net, Addr(p));
  }

  /** The port the iteration works on: `next`, or, when that is none, the
      port on the other side of the most recently saved one. */
  function Cursor(m: Machine): (r: nat)
    requires Sane(m) && Running(m)
    ensures IsWire(m.net, r)
    ensures m.next != 0 ==> r == m.next
    ensures m.next == 0 ==> r == m.net.nodes[m.warp[|m.warp| - 1]]
  {
    if m.next == 0 then
      WireEnds(m.net, m.warp[|m.warp| - 1]);
      Enter(m.net, m.warp[|m.warp| - 1])
    else m.next
  }

  /** The warp stack once the iteration has taken what it needs from it. */
  function Warp(m: Machine): (r: seq<nat>)
    requires Running(m)
    ensures m.next != 0 ==> r == m.warp
    ensures m.next == 0 ==> r + [m.warp[|m.warp| - 1]] == m.warp
  {
    if m.next == 0 then m.warp[..|m.warp| - 1] else m.warp
  }

  /** The port on the other side of the cursor. */
  function Prev(m: Machine): (r: nat)
    requires Sane(m) && Running(m)
    ensures IsWire(m.net, r)
  {
    WireEnds(m.net, Cursor(m));
    Enter(m.net, Cursor(m))
  }

  /** The cursor and the port it is wired to are both principal ports, and
      the other one is not node 0 (the root, which is never rewritten). */
  predicate IsRedex(m: Machine)
    requires Sane(m) && Running(m)
  {
    Slot(Cursor(m)) == 0 && Slot(Prev(m)) == 0 && Addr(Prev(m)) != 0
  }

  /** What the engine needs to survive one more iteration: at an active pair
      the exit stack is not empty (or the pop panics) and the rewrite fits in
      32-bit handles. */
  predicate CanStep(m: Machine)
  {
    && Sane(m)
    && Running(m)
    && (IsRedex(m) ==> |m.exit| > 0 && CanRewrite(m.net, Addr(Prev(m)), Addr(Cursor(m))))
  }

  /** With room for two more nodes, an iteration that does not pop an empty
      exit stack can run. */
  lemma ReadyToStep(m: Machine)
    requires Sane(m) && Running(m) && |m.net.nodes| + 8 <= WordLimit
    requires IsRedex(m) ==> |m.exit| > 0
    ensures CanStep(m)
  {
    AddrAllocated(m.net, Prev(m));
    AddrAllocated(m.net, Cursor(m));
  }

  /** The port to resume from after a rewrite, read before the rewrite: the
      node on the other side of the cursor, at the slot popped from the exit
      stack, and then across its wire. */
  function Back(m: Machine): (r: nat)
    requires Sane(m) && Running(m) && |m.exit| > 0
    ensures IsWire(m.net, r)
  {
    SiblingWired(m.net, Prev(m));
    Enter(m.net, Port(Addr(Prev(m)), m.exit[|m.exit| - 1]))
  }

  /** The end of the iteration that fires the rule on an active pair: with
      `net` the rewritten net, pop the exit stack and resume from the port on
      the other side of `back`. */
  function Resume(m: Machine, net: Net, back: nat): (r: Machine)
    requires Sane(m) && Running(m) && |m.exit| > 0
    requires Valid(net) && |m.net.nodes| <= |net.nodes| && IsWire(m.net, back)
    ensures Sane(r)
    ensures r.net == net && r.stats == m.stats
    ensures r.warp == Warp(m) && r.exit + [m.exit[|m.exit| - 1]] == m.exit
    ensures r.next == Enter(net, back)
  {
    WidenWires(m, net);
    WireEnds(net, back);
    var exit := m.exit[..|m.exit| - 1];
    assert forall j | 0 <= j < |exit| :: exit[j] == m.exit[j];
    Machine(net, Warp(m), exit, Enter(net, back), m.stats)
  }

  /** The iteration at an active pair: read where to resume, rewrite the
      pair (the node behind the cursor first), resume. */
  function Fire(m: Machine): (r: Machine)
    requires CanStep(m) && IsRedex(m)
    ensures Sane(r) && r.stats == m.stats
    ensures r.net == Rewrite(m.net, Addr(Prev(m)), Addr(Cursor(m)))
    ensures |m.net.nodes| <= |r.net.nodes| <= |m.net.nodes| + 8
    ensures r.warp == Warp(m) && r.exit + [m.exit[|m.exit| - 1]] == m.exit
    ensures r.next == Enter(r.net, Back(m))
  {
    var back := Back(m);
    var net := Rewrite(m.net, Addr(Prev(m)), Addr(Cursor(m)));
    RewriteGrowth(m.net, Addr(Prev(m)), Addr(Cursor(m)));
    Resume(m, net, back)
  }

  /** A rewrite never shrinks the buffer, so saved wire ends stay wire ends. */
  lemma WidenWires(m: Machine, net: Net)
    requires Sane(m) && Running(m) && Valid(net) && |m.net.nodes| <= |net.nodes|
    ensures forall j | 0 <= j < |Warp(m)| :: IsWire(net, Warp(m)[j])
  {
    forall j | 0 <= j < |Warp(m)|
      ensures IsWire(net, Warp(m)[j])
    {
      assert Warp(m)[j] == m.warp[j];
    }
  }

  /** The iteration at a principal port that is not part of an active pair:
      save the node's second auxiliary port for later, go down its first. */
  function Descend(m: Machine): (r: Machine)
    requires Sane(m) && Running(m)
    ensures Sane(r) && r.net == m.net && r.exit == m.exit && r.stats == m.stats
    ensures r.warp == Warp(m) + [Port(Addr(Cursor(m)), 2)]
    ensures r.next == Enter(m.net, Port(Addr(Cursor(m)), 1))
  {
    var cur := Cursor(m);
    SiblingWired(m.net, cur);
    WidenWires(m, m.net);
    Machine(m.net, Warp(m) + [Port(Addr(cur), 2)], m.exit, Enter(m.net, Port(Addr(cur), 1)), m.stats)
  }

  /** The iteration at an auxiliary port: remember its slot, go up to the
      node's principal port. */
  function Ascend(m: Machine): (r: Machine)
    requires Sane(m) && Running(m) && Slot(Cursor(m)) != 0
    ensures Sane(r) && r.net == m.net && r.warp == Warp(m) && r.stats == m.stats
    ensures r.exit == m.exit + [Slot(Cursor(m))]
    ensures r.next == Enter(m.net, Port(Addr(Cursor(m)), 0))
  {
    var cur := Cursor(m);
    SiblingWired(m.net, cur);
    WidenWires(m, m.net);
    Machine(m.net, Warp(m), m.exit + [Slot(cur)], Enter(m.net, Port(Addr(cur), 0)), m.stats)
  }

  /** One iteration of the reduction loop. It keeps the loop's invariant,
      counts itself, counts a rule exactly when it rewrites, changes the net
      only by that rewrite, and grows the buffer by at most two nodes. */
  function Step(m: Machine): (r: Machine)
    requires CanStep(m)
    ensures Sane(r)
    ensures r.stats == m.stats.(loops := m.stats.loops + 1,
                                rules := m.stats.rules + (if IsRedex(m) then 1 else 0))
    ensures !IsRedex(m) ==> r.net == m.net
    ensures IsRedex(m) ==> r.net == Rewrite(m.net, Addr(Prev(m)), Addr(Cursor(m)))
    ensures |m.net.nodes| <= |r.net.nodes| <= |m.net.nodes| + 8
  {
    hide Fire, Descend, Ascend, Rewrite;
    var s := m.stats.(loops := m.stats.loops + 1);
    if IsRedex(m) then Fire(m).(stats := s.(rules := s.rules + 1))
    else if Slot(Cursor(m)) == 0 then Descend(m).(stats := s)
    else Ascend(m).(stats := s)
  }

  /** One iteration's effect on the counters and the net, with the rule
      count standing for whether it rewrote. */
  lemma StepCounts(m: Machine)
    requires CanStep(m)
    ensures var s := Step(m);
            && s.stats.loops == m.stats.loops + 1
            && m.stats.rules <= s.stats.rules <= m.stats.rules + 1
            && s.stats.betas == m.stats.betas && s.stats.dupls == m.stats.dupls
            && s.stats.annis == m.stats.annis
            && (s.stats.rules == m.stats.rules ==> s.net == m.net)
            && |m.net.nodes| <= |s.net.nodes| <= |m.net.nodes| + 8 * (s.stats.rules - m.stats.rules)
  {
  }

  /** Whether the loop goes on for another iteration, and if not why. */
  datatype Check = Go | Halt(outcome: Outcome)

  /** The loop stops when its guard fails, when the fuel is spent, or at an
      active pair with an empty exit stack; these are checked in that order. */
  function Halting(m: Machine, fuel: nat): (r: Check)
    requires Sane(m)
    ensures r == Go <==> Running(m) && fuel > 0 && !(IsRedex(m) && |m.exit| == 0)
    ensures r == Halt(Normal) <==> !Running(m)
  {
    if !Running(m) then Halt(Normal)
    else if fuel == 0 then Halt(OutOfFuel)
    else if IsRedex(m) && |m.exit| == 0 then Halt(EmptyExit)
    else Go
  }

  /** Iterates the loop for at most `fuel` iterations, keeping the loop's
      invariant; `RunCounts` and `RunEnds` state what it reports. */
  function Run(m: Machine, fuel: nat): (r: (Machine, Outcome))
    requires Sane(m) && |m.net.nodes| + 8 * fuel <= WordLimit
    ensures Sane(r.0)
    decreases fuel
  {
    match Halting(m, fuel)
    case Halt(o) => (m, o)
    case Go =>
      ReadyToStep(m);
      Run(Step(m), fuel - 1)
  }

  /** The counters other than `loops` and `rules` do not move; every
      iteration counts itself and at most one rule; the net is untouched
      unless a rule fired, and grows by at most two nodes per rule. */
  lemma {:induction false} RunCounts(m: Machine, fuel: nat)
    requires Sane(m) && |m.net.nodes| + 8 * fuel <= WordLimit
    ensures var r := Run(m, fuel).0;
            && r.stats.betas == m.stats.betas && r.stats.dupls == m.stats.dupls
            && r.stats.annis == m.stats.annis
            && m.stats.loops <= r.stats.loops <= m.stats.loops + fuel
            && m.stats.rules <= r.stats.rules
            && r.stats.rules - m.stats.rules <= r.stats.loops - m.stats.loops
            && |m.net.nodes| <= |r.net.nodes| <= |m.net.nodes| + 8 * (r.stats.rules - m.stats.rules)
            && (r.stats.rules == m.stats.rules ==> r.net == m.net)
    decreases fuel
  {
    hide Step, Rewrite;
    if Halting(m, fuel) == Go {
      RunUnfolds(m, fuel);
      StepCounts(m);
      RunCounts(Step(m), fuel - 1);
    }
  }

  /** The run ends normally exactly when the loop guard fails; it runs out of
      fuel only after `fuel` iterations; and it reports an empty exit stack
      only at an active pair. */
  lemma {:induction false} RunEnds(m: Machine, fuel: nat)
    requires Sane(m) && |m.net.nodes| + 8 * fuel <= WordLimit
    ensures var (r, o) := Run(m, fuel);
            && (o == Normal <==> !Running(r))
            && (o == OutOfFuel ==> r.stats.loops == m.stats.loops + fuel)
            && (o == EmptyExit ==> IsRedex(r) && |r.exit| == 0)
    decreases fuel
  {
    hide Step, Rewrite;
    if Halting(m, fuel) == Go {
      RunUnfolds(m, fuel);
      RunEnds(Step(m), fuel - 1);
    }
  }

  /** Fuel only bounds the loop: a run that stopped before its fuel ran out
      gives the same machine and outcome with any larger fuel. */
  lemma {:induction false} RunSettled(m: Machine, fuel: nat, more: nat)
    requires Sane(m) && fuel <= more && |m.net.nodes| + 8 * more <= WordLimit
    requires Run(m, fuel).1 != OutOfFuel
    ensures Run(m, more) == Run(m, fuel)
    decreases fuel
  {
    hide Step, Rewrite;
    if Halting(m, fuel) == Go {
      RunUnfolds(m, fuel);
      RunUnfolds(m, more);
      RunSettled(Step(m), fuel - 1, more - 1);
    }
  }

  /** A run that neither stops nor panics is one iteration followed by the
      rest of the run. */
  lemma RunUnfolds(m: Machine, fuel: nat)
    requires Sane(m) && |m.net.nodes| + 8 * fuel <= WordLimit
    requires Halting(m, fuel) == Go
    ensures CanStep(m) && |Step(m).net.nodes| + 8 * (fuel - 1) <= WordLimit
    ensures Run(m, fuel) == Run(Step(m), fuel - 1)
  {
    ReadyToStep(m);
  }

  /** A run that stops at once returns the machine it was given. */
  lemma RunHalts(m: Machine, fuel: nat)
    requires Sane(m) && |m.net.nodes| + 8 * fuel <= WordLimit
    requires Halting(m, fuel).Halt?
    ensures Run(m, fuel) == (m, Halting(m, fuel).outcome)
  {
  }

  /** The state the loop starts from: empty stacks, the walk at the port
      stored in entry 0, all counters zero. */
  function Start(net: Net): (r: Machine)
    requires Valid(net) && |net.nodes| > 0
    ensures Sane(r) && r.net == net && r.stats == NoStats
    ensures r.next == net.nodes[0] && r.warp == [] && r.exit == []
  {
    assert EntryOk(net, 0);
    Machine(net, [], [], net.nodes[0], NoStats)
  }

  /** What a run from the start state reports, stated for the result of
      `Reduce`. */
  lemma RunFromStart(net: Net, fuel: nat)
    requires Valid(net) && |net.nodes| > 0 && |net.nodes| + 8 * fuel <= WordLimit
    ensures var (m, o) := Run(Start(net), fuel);
            && Valid(m.net)
            && m.stats.betas == 0 && m.stats.dupls == 0 && m.stats.annis == 0
            && m.stats.rules <= m.stats.loops <= fuel
            && |net.nodes| <= |m.net.nodes| <= |net.nodes| + 8 * m.stats.rules
            && (m.stats.rules == 0 ==> m.net == net)
            && (net.nodes[0] == 0 ==> m.net == net && m.stats == NoStats && o == Normal)
            && (o == OutOfFuel ==> m.stats.loops == fuel)
  {
    RunCounts(Start(net), fuel);
    RunEnds(Start(net), fuel);
    if net.nodes[0] == 0 {
      RootIdle(net, fuel);
    }
  }

  /** When entry 0 holds port 0 the loop guard fails at once: no iteration
      runs and the net and counters come back as they were. */
  lemma RootIdle(net: Net, fuel: nat)
    requires Valid(net) && |net.nodes| > 0 && |net.nodes| + 8 * fuel <= WordLimit
    requires net.nodes[0] == 0
    ensures Run(Start(net), fuel) == (Start(net), Normal)
    ensures Run(Start(net), fuel).0.net == net && Run(Start(net), fuel).0.stats == NoStats
  {
  }

  /** Conversely, when entry 0 holds a real port and there is fuel, the loop
      guard holds at the start: at least one iteration runs, unless the walk
      starts at an active pair, where the empty exit stack stops it at once. */
  lemma RootBusy(net: Net, fuel: nat)
    requires Valid(net) && |net.nodes| > 0 && |net.nodes| + 8 * fuel <= WordLimit
    requires net.nodes[0] != 0 && fuel > 0
    ensures var (m, o) := Run(Start(net), fuel);
            m.stats.loops > 0 || (o == EmptyExit && m == Start(net))
  {
    hide Step, Rewrite;
    var s := Start(net);
    if Halting(s, fuel) == Go {
      RunUnfolds(s, fuel);
      RunCounts(Step(s), fuel - 1);
    } else {
      RunHalts(s, fuel);
    }
  }

  /** Reduces `net` for at most `fuel` iterations of the loop and reports
      the counters. The engine's loop has no bound; `fuel` is the model's,
      and `outcome` says whether the loop finished, ran out of fuel, or
      stopped where the engine would panic on an empty exit stack. */
  method Reduce(net: Net, fuel: nat) returns (r: Net, stats: Stats, outcome: Outcome)
    requires Valid(net) && |net.nodes| > 0 && |net.nodes| + 8 * fuel <= WordLimit
    ensures Valid(r)
    ensures stats.betas == 0 && stats.dupls == 0 && stats.annis == 0
    ensures stats.rules <= stats.loops <= fuel
    ensures |net.nodes| <= |r.nodes| <= |net.nodes| + 8 * stats.rules
    ensures stats.rules == 0 ==> r == net
    ensures net.nodes[0] == 0 ==> r == net && stats == NoStats && outcome == Normal
    ensures outcome == OutOfFuel ==> stats.loops == fuel
    ensures r == Run(Start(net), fuel).0.net && stats == Run(Start(net), fuel).0.stats
    ensures outcome == Run(Start(net), fuel).1
  {
    hide Step, Rewrite;
    RunFromStart(net, fuel);
    var m := Start(net);
    var left := fuel;
    ghost var goal := Run(m, left);
    while true
      invariant Sane(m) && |m.net.nodes| + 8 * left <= WordLimit
      invariant Run(m, left) == goal
      decreases left
    {
      var check := Halting(m, left);
      if check.Halt? {
        outcome := check.outcome;
        RunHalts(m, left);
        break;
      }
      RunUnfolds(m, left);
      m := Step(m);
      left := left - 1;
    }
    assert (m, outcome) == goal;
    r := m.net;
    stats := m.stats;
  }
}

=== FILE: rewrite.dfy ===
/** The rewrite engine: the two interaction rules of the combinators, fired
on an active pair `x`, `y` (two nodes whose principal ports are wired to each
other). Nodes of the same kind annihilate; nodes of different kinds commute,
each being duplicated so that the other can pass through it. */
module Rewriting {
  import opened Codec
  import opened Nets

  function Min(a: nat, b: nat): nat
  {
    if a <= b then a else b
  }

  /** The buffer can absorb the two allocations of a duplication: what the
      free list cannot supply is grown without outgrowing 32-bit handles. */
  predicate RoomForTwo(net: Net)
  {
    |net.nodes| + 8 - 4 * Min(|net.reuse|, 2) <= WordLimit
  }

  /** What `Rewrite` needs to stay inside the buffer. */
  predicate CanRewrite(net: Net, x: nat, y: nat)
  {
    && Valid(net)
    && Allocated(net, x)
    && Allocated(net, y)
    && (Kind(net, x) != Kind(net, y) ==> RoomForTwo(net))
  }

  /** The two addresses a duplication receives, in order: the allocator pops
      the free list from its end and grows the buffer once it is empty. */
  function FreshPair(net: Net): (nat, nat)
  {
    var k := |net.reuse|;
    if k >= 2 then (net.reuse[k - 1], net.reuse[k - 2])
    else if k == 1 then (net.reuse[0], |net.nodes| / 4)
    else (|net.nodes| / 4, |net.nodes| / 4 + 1)
  }

  /** Entry `i` of the buffer belongs to node `n`. */
  predicate InNode(i: nat, n: nat)
  {
    Addr(i) == n
  }

  /** Entry `i` is one of the auxiliary ports of node `n`. */
  predicate AuxOf(i: nat, n: nat)
  {
    Addr(i) == n && (Slot(i) == 1 || Slot(i) == 2)
  }

  /** Port `t` belongs to none of the four nodes of a duplication. */
  predicate Away(t: nat, a: nat, b: nat, x: nat, y: nat)
  {
    !InNode(t, a) && !InNode(t, b) && !InNode(t, x) && !InNode(t, y)
  }

  predicate Distinct4(a: nat, b: nat, c: nat, d: nat)
  {
    a != b && a != c && a != d && b != c && b != d && c != d
  }

  /** Room for two allocations leaves room for the first, and then for the
      second. */
  lemma RoomForBoth(net: Net, kind: nat)
    requires Valid(net) && RoomForTwo(net) && kind < WordLimit
    ensures CanAllocate(net)
    ensures CanAllocate(NewNode(net, kind).net)
  {
    var k := |net.reuse|;
    if k > 0 {
      assert 4 * net.reuse[k - 1] + 4 <= |net.nodes|;
    }
    if k > 1 {
      assert 4 * net.reuse[k - 2] + 4 <= |net.nodes|;
      assert NewNode(net, kind).net.reuse[k - 2] == net.reuse[k - 2];
    }
  }

  /** One step of an annihilation: the ports wired to `p` and to `q` are
      wired to each other. */
  function JoinNeighbours(net: Net, p: nat, q: nat): (r: Net)
    requires Valid(net) && IsWire(net, p) && IsWire(net, q)
    ensures Valid(r)
    ensures |r.nodes| == |net.nodes| && r.reuse == net.reuse
    ensures Linked(r, net.nodes[p], net.nodes[q])
    ensures forall i | 0 <= i < |net.nodes| && i != net.nodes[p] && i != net.nodes[q] ::
              r.nodes[i] == net.nodes[i]
  {
    WireEnds(net, p);
    WireEnds(net, q);
    var p0 := Enter(net, p);
    var p1 := Enter(net, q);
    LinkValid(net, p0, p1);
    Link(net, p0, p1)
  }

  /** Annihilation: the aux-1 neighbours of `x` and `y` are wired to each
      other, then the aux-2 neighbours (read after the first link), and both
      addresses are pushed on the free list, `x` first. */
  function Annihilate(net: Net, x: nat, y: nat): (r: Net)
    requires Valid(net) && Allocated(net, x) && Allocated(net, y)
    ensures Valid(r)
    ensures |r.nodes| == |net.nodes| && r.reuse == net.reuse + [x, y]
  {
    PortWired(net, x);
    PortWired(net, y);
    var n1 := JoinNeighbours(net, Port(x, 1), Port(y, 1));
    var n2 := JoinNeighbours(n1, Port(x, 2), Port(y, 2));
    FreeValid(n2, x, y);
    n2.(reuse := n2.reuse + [x, y])
  }

  /** A net together with the two nodes a duplication allocated. */
  datatype Fresh = Fresh(net: Net, a: nat, b: nat)

  /** First step of a duplication: `a` gets the kind of `x`, then `b` gets
      the kind `y` has once `a` exists. */
  function AllocatePair(net: Net, x: nat, y: nat): (r: Fresh)
    requires Valid(net) && Allocated(net, x) && Allocated(net, y) && RoomForTwo(net)
    ensures Valid(r.net)
    ensures (r.a, r.b) == FreshPair(net)
    ensures Allocated(r.net, r.a) && Allocated(r.net, r.b)
    ensures |r.net.nodes| == |net.nodes| + 4 * (2 - Min(|net.reuse|, 2))
    ensures r.net.reuse == net.reuse[..|net.reuse| - Min(|net.reuse|, 2)]
    ensures r.a != r.b ==> Kind(r.net, r.a) == Kind(net, x)
    ensures r.a != y ==> Kind(r.net, r.b) == Kind(net, y)
    ensures forall i | 0 <= i < |net.nodes| && !InNode(i, r.a) && !InNode(i, r.b) ::
              r.net.nodes[i] == net.nodes[i]
  {
    KindIsWord(net, x);
    RoomForBoth(net, Kind(net, x));
    var A := NewNode(net, Kind(net, x));
    KindIsWord(A.net, y);
    var B := NewNode(A.net, Kind(A.net, y));
    PairShape(net, Kind(net, x), Kind(A.net, y), A, B);
    PairKinds(net, x, y, A, B);
    Fresh(B.net, A.node, B.node)
  }

  /** Where the two allocations of a duplication come from. */
  lemma PairShape(net: Net, ka: nat, kb: nat, A: Alloc, B: Alloc)
    requires Valid(net) && CanAllocate(net) && ka < WordLimit && A == NewNode(net, ka)
    requires CanAllocate(A.net) && kb < WordLimit && B == NewNode(A.net, kb)
    ensures (A.node, B.node) == FreshPair(net)
    ensures |B.net.nodes| == |net.nodes| + 4 * (2 - Min(|net.reuse|, 2))
    ensures B.net.reuse == net.reuse[..|net.reuse| - Min(|net.reuse|, 2)]
  {
    var k := |net.reuse|;
    if k == 0 {
      assert B.node == |A.net.nodes| / 4 == |net.nodes| / 4 + 1;
    } else if k == 1 {
      assert A.net.reuse == [];
    } else {
      assert A.net.reuse == net.reuse[..k - 1];
      assert B.net.reuse == net.reuse[..k - 2];
    }
  }

  /** The kinds of the two allocated nodes, and the entries they leave alone. */
  lemma PairKinds(net: Net, x: nat, y: nat, A: Alloc, B: Alloc)
    requires Valid(net) && Allocated(net, x) && Allocated(net, y)
    requires Kind(net, x) < WordLimit && CanAllocate(net) && A == NewNode(net, Kind(net, x))
    requires Allocated(A.net, y) && Kind(A.net, y) < WordLimit && CanAllocate(A.net)
    requires B == NewNode(A.net, Kind(A.net, y))
    ensures Valid(B.net)
    ensures Allocated(B.net, A.node) && Allocated(B.net, B.node)
    ensures A.node != B.node ==> Kind(B.net, A.node) == Kind(net, x)
    ensures A.node != y ==> Kind(B.net, B.node) == Kind(net, y)
    ensures forall i | 0 <= i < |net.nodes| && !InNode(i, A.node) && !InNode(i, B.node) ::
              B.net.nodes[i] == net.nodes[i]
  {
    if A.node != B.node {
      assert Port(A.node, 3) < 4 * B.node || 4 * B.node + 4 <= Port(A.node, 3);
    }
    if A.node != y {
      assert Port(y, 3) < 4 * A.node || 4 * A.node + 4 <= Port(y, 3);
    }
  }

  /** One step of a duplication: the port wired to `from` is wired to `to`
      instead. */
  function Hand(net: Net, from: nat, to: nat): (r: Net)
    requires Valid(net) && IsWire(net, from) && IsWire(net, to)
    ensures Valid(r)
    ensures |r.nodes| == |net.nodes| && r.reuse == net.reuse
    ensures Linked(r, to, net.nodes[from])
    ensures forall i | 0 <= i < |net.nodes| && i != to && i != net.nodes[from] ::
              r.nodes[i] == net.nodes[i]
  {
    WireEnds(net, from);
    var t := Enter(net, from);
    LinkValid(net, to, t);
    Link(net, to, t)
  }

  /** Second step of a duplication: the four outer neighbours of the pair
      move, in this order, to `b.0`, `y.0`, `a.0` and `x.0`. */
  function Reconnect(net: Net, x: nat, y: nat, a: nat, b: nat): (r: Net)
    requires Valid(net)
    requires Allocated(net, x) && Allocated(net, y) && Allocated(net, a) && Allocated(net, b)
    ensures Valid(r)
    ensures |r.nodes| == |net.nodes| && r.reuse == net.reuse
  {
    PortWired(net, x);
    PortWired(net, y);
    PortWired(net, a);
    PortWired(net, b);
    var n1 := Hand(net, Port(x, 1), Port(b, 0));
    var n2 := Hand(n1, Port(x, 2), Port(y, 0));
    var n3 := Hand(n2, Port(y, 1), Port(a, 0));
    Hand(n3, Port(y, 2), Port(x, 0))
  }

  /** Last step of a duplication: the four auxiliary wires between the two
      new and the two old nodes. */
  function Interconnect(net: Net, x: nat, y: nat, a: nat, b: nat): (r: Net)
    requires Valid(net)
    requires Allocated(net, x) && Allocated(net, y) && Allocated(net, a) && Allocated(net, b)
    ensures Valid(r)
    ensures |r.nodes| == |net.nodes| && r.reuse == net.reuse
  {
    PortWired(net, x);
    PortWired(net, y);
    PortWired(net, a);
    PortWired(net, b);
    var n1 := Link(net, Port(a, 1), Port(b, 1));
    LinkValid(net, Port(a, 1), Port(b, 1));
    var n2 := Link(n1, Port(a, 2), Port(y, 1));
    LinkValid(n1, Port(a, 2), Port(y, 1));
    var n3 := Link(n2, Port(x, 1), Port(b, 2));
    LinkValid(n2, Port(x, 1), Port(b, 2));
    LinkValid(n3, Port(x, 2), Port(y, 2));
    Link(n3, Port(x, 2), Port(y, 2))
  }

  /** Duplication: allocate `a` and `b`, move the outer neighbours, wire the
      four nodes together. Nothing is freed. */
  function Duplicate(net: Net, x: nat, y: nat): (r: Net)
    requires Valid(net) && Allocated(net, x) && Allocated(net, y) && RoomForTwo(net)
    ensures Valid(r)
    ensures |r.nodes| == |net.nodes| + 4 * (2 - Min(|net.reuse|, 2))
    ensures r.reuse == net.reuse[..|net.reuse| - Min(|net.reuse|, 2)]
  {
    var f := AllocatePair(net, x, y);
    var n := Reconnect(f.net, x, y, f.a, f.b);
    Interconnect(n, x, y, f.a, f.b)
  }

  /** Applies the interaction rule to the active pair `x`, `y` (addresses,
      not ports): equal kinds annihilate, different kinds duplicate. */
  function Rewrite(net: Net, x: nat, y: nat): (r: Net)
    requires CanRewrite(net, x, y)
    ensures Valid(r)
    ensures Kind(net, x) == Kind(net, y) ==>
              |r.nodes| == |net.nodes| && r.reuse == net.reuse + [x, y]
    ensures Kind(net, x) != Kind(net, y) ==>
              && |r.nodes| == |net.nodes| + 4 * (2 - Min(|net.reuse|, 2))
              && r.reuse == net.reuse[..|net.reuse| - Min(|net.reuse|, 2)]
  {
    hide Annihilate, Duplicate;
    if Kind(net, x) == Kind(net, y) then Annihilate(net, x, y) else Duplicate(net, x, y)
  }

  /** A rewrite grows the buffer by at most two nodes and never shrinks it. */
  lemma RewriteGrowth(net: Net, x: nat, y: nat)
    requires CanRewrite(net, x, y)
    ensures |net.nodes| <= |Rewrite(net, x, y).nodes| <= |net.nodes| + 8
  {
  }
}

=== FILE: rewrite_laws.dfy ===
/** What the two interaction rules do to the wiring, stated against the net
before the rewrite. */
module RewriteLaws {
  import opened Codec
  import opened Nets
  import opened Rewriting

  /** Annihilation re-pairs the four auxiliary half-wires: every entry other
      than the four former neighbours keeps its value, and when those
      neighbours are four distinct ports outside the two slot-2 ports, the
      neighbour of `x.1` ends up wired to the neighbour of `y.1`, and that of
      `x.2` to that of `y.2`. */
  lemma AnnihilationRewires(net: Net, x: nat, y: nat)
    requires CanRewrite(net, x, y) && Kind(net, x) == Kind(net, y)
    ensures var r := Rewrite(net, x, y);
            var p0, p1 := net.nodes[Port(x, 1)], net.nodes[Port(y, 1)];
            var q0, q1 := net.nodes[Port(x, 2)], net.nodes[Port(y, 2)];
            forall i | 0 <= i < |net.nodes| && i != p0 && i != p1 && i != q0 && i != q1 ::
              r.nodes[i] == net.nodes[i]
    ensures var r := Rewrite(net, x, y);
            var p0, p1 := net.nodes[Port(x, 1)], net.nodes[Port(y, 1)];
            var q0, q1 := net.nodes[Port(x, 2)], net.nodes[Port(y, 2)];
            && p0 != Port(x, 2) && p0 != Port(y, 2) && p1 != Port(x, 2) && p1 != Port(y, 2)
            && p0 != q0 && p0 != q1 && p1 != q0 && p1 != q1
            ==> Linked(r, p0, p1) && Linked(r, q0, q1)
  {
    PortWired(net, x);
    PortWired(net, y);
    var n1 := JoinNeighbours(net, Port(x, 1), Port(y, 1));
    var n2 := JoinNeighbours(n1, Port(x, 2), Port(y, 2));
    var r := Rewrite(net, x, y);
    assert r.nodes == n2.nodes;
    var p0, p1 := net.nodes[Port(x, 1)], net.nodes[Port(y, 1)];
    assert n1.nodes[Port(x, 2)] in {net.nodes[Port(x, 2)], p0, p1};
    assert n1.nodes[Port(y, 2)] in {net.nodes[Port(y, 2)], p0, p1};
  }

  /** When the auxiliary ports of `y` are wired to each other (an identity
      node meeting its argument), annihilation joins the two neighbours of
      `x` directly: the first link sends x.1's neighbour into y.2, and the
      second reads it back from there. */
  lemma AnnihilationThroughLoopOfY(net: Net, x: nat, y: nat)
    requires CanRewrite(net, x, y) && Kind(net, x) == Kind(net, y) && x != y
    requires Linked(net, Port(y, 1), Port(y, 2))
    requires var p0, q0 := net.nodes[Port(x, 1)], net.nodes[Port(x, 2)];
             !InNode(p0, x) && !InNode(p0, y) && !InNode(q0, x) && !InNode(q0, y)
    ensures Linked(Rewrite(net, x, y), net.nodes[Port(x, 1)], net.nodes[Port(x, 2)])
  {
    hide Link;
    PortWired(net, x);
    PortWired(net, y);
    var n1 := JoinNeighbours(net, Port(x, 1), Port(y, 1));
    var n2 := JoinNeighbours(n1, Port(x, 2), Port(y, 2));
    assert Rewrite(net, x, y).nodes == n2.nodes;
    var p0 := net.nodes[Port(x, 1)];
    assert n1.nodes[Port(y, 2)] == p0;
    assert n1.nodes[Port(x, 2)] == net.nodes[Port(x, 2)];
  }

  /** The mirror case: when the auxiliary ports of `x` are wired to each
      other, annihilation joins the two neighbours of `y`. */
  lemma AnnihilationThroughLoopOfX(net: Net, x: nat, y: nat)
    requires CanRewrite(net, x, y) && Kind(net, x) == Kind(net, y) && x != y
    requires Linked(net, Port(x, 1), Port(x, 2))
    requires var r0, s0 := net.nodes[Port(y, 1)], net.nodes[Port(y, 2)];
             !InNode(r0, x) && !InNode(r0, y) && !InNode(s0, x) && !InNode(s0, y)
    ensures Linked(Rewrite(net, x, y), net.nodes[Port(y, 1)], net.nodes[Port(y, 2)])
  {
    hide Link;
    PortWired(net, x);
    PortWired(net, y);
    var n1 := JoinNeighbours(net, Port(x, 1), Port(y, 1));
    var n2 := JoinNeighbours(n1, Port(x, 2), Port(y, 2));
    assert Rewrite(net, x, y).nodes == n2.nodes;
    var r0 := net.nodes[Port(y, 1)];
    assert n1.nodes[Port(x, 2)] == r0;
    assert n1.nodes[Port(y, 2)] == net.nodes[Port(y, 2)];
  }

  /** The last step of a duplication writes only auxiliary ports of the
      four nodes involved. */
  lemma InterconnectFrame(net: Net, x: nat, y: nat, a: nat, b: nat)
    requires Valid(net)
    requires Allocated(net, x) && Allocated(net, y) && Allocated(net, a) && Allocated(net, b)
    ensures var r := Interconnect(net, x, y, a, b);
            forall i | 0 <= i < |net.nodes| && !AuxOf(i, a) && !AuxOf(i, b) && !AuxOf(i, x) && !AuxOf(i, y) ::
              r.nodes[i] == net.nodes[i]
  {
    var n1 := Link(net, Port(a, 1), Port(b, 1));
    var n2 := Link(n1, Port(a, 2), Port(y, 1));
    var n3 := Link(n2, Port(x, 1), Port(b, 2));
    var r := Link(n3, Port(x, 2), Port(y, 2));
    assert r == Interconnect(net, x, y, a, b);
    forall i | 0 <= i < |net.nodes| && !AuxOf(i, a) && !AuxOf(i, b) && !AuxOf(i, x) && !AuxOf(i, y)
      ensures r.nodes[i] == net.nodes[i]
    {
      assert n1.nodes[i] == net.nodes[i];
      assert n2.nodes[i] == n1.nodes[i];
      assert n3.nodes[i] == n2.nodes[i];
    }
  }

  /** When the four nodes are distinct, the last step of a duplication leaves
      them wired a.1-b.1, a.2-y.1, x.1-b.2 and x.2-y.2. */
  lemma InterconnectLinks(net: Net, x: nat, y: nat, a: nat, b: nat)
    requires Valid(net)
    requires Allocated(net, x) && Allocated(net, y) && Allocated(net, a) && Allocated(net, b)
    requires Distinct4(a, b, x, y)
    ensures var r := Interconnect(net, x, y, a, b);
            && Linked(r, Port(a, 1), Port(b, 1))
            && Linked(r, Port(a, 2), Port(y, 1))
            && Linked(r, Port(x, 1), Port(b, 2))
            && Linked(r, Port(x, 2), Port(y, 2))
  {
    hide Link;
    var a1, a2, b1, b2 := Port(a, 1), Port(a, 2), Port(b, 1), Port(b, 2);
    var x1, x2, y1, y2 := Port(x, 1), Port(x, 2), Port(y, 1), Port(y, 2);
    var n1 := Link(net, a1, b1);
    var n2 := Link(n1, a2, y1);
    var n3 := Link(n2, x1, b2);
    assert Link(n3, x2, y2) == Interconnect(net, x, y, a, b);
  }

  /** The last step of a duplication keeps every kind tag. */
  lemma InterconnectKeepsKinds(net: Net, x: nat, y: nat, a: nat, b: nat)
    requires Valid(net)
    requires Allocated(net, x) && Allocated(net, y) && Allocated(net, a) && Allocated(net, b)
    ensures var r := Interconnect(net, x, y, a, b);
            forall i | 0 <= i < |net.nodes| && i % 4 == 3 :: r.nodes[i] == net.nodes[i]
  {
    InterconnectFrame(net, x, y, a, b);
  }

  /** An auxiliary port of a node lies inside that node. */
  lemma AuxInNode(i: nat, n: nat)
    ensures AuxOf(i, n) ==> InNode(i, n)
  {
  }

  /** A link from a principal port to a port outside the four nodes
      survives the last step of a duplication. */
  lemma InterconnectKeepsLink(net: Net, x: nat, y: nat, a: nat, b: nat, p: nat, q: nat)
    requires Valid(net)
    requires Allocated(net, x) && Allocated(net, y) && Allocated(net, a) && Allocated(net, b)
    requires Linked(net, p, q)
    requires p % 4 == 0 && Away(q, a, b, x, y)
    ensures Linked(Interconnect(net, x, y, a, b), p, q)
  {
    AuxInNode(q, a);
    AuxInNode(q, b);
    AuxInNode(q, x);
    AuxInNode(q, y);
    InterconnectFrame(net, x, y, a, b);
  }

  /** The second step of a duplication writes only principal ports of the
      four nodes and real ports wired to them; in particular it keeps every
      kind tag. */
  lemma ReconnectKeepsKinds(net: Net, x: nat, y: nat, a: nat, b: nat)
    requires Valid(net)
    requires Allocated(net, x) && Allocated(net, y) && Allocated(net, a) && Allocated(net, b)
    ensures var r := Reconnect(net, x, y, a, b);
            forall i | 0 <= i < |net.nodes| && i % 4 == 3 :: r.nodes[i] == net.nodes[i]
  {
    hide Link;
    PortWired(net, x);
    PortWired(net, y);
    PortWired(net, a);
    PortWired(net, b);
    var n1 := Hand(net, Port(x, 1), Port(b, 0));
    WireEnds(n1, Port(x, 2));
    var n2 := Hand(n1, Port(x, 2), Port(y, 0));
    WireEnds(n2, Port(y, 1));
    var n3 := Hand(n2, Port(y, 1), Port(a, 0));
    WireEnds(n3, Port(y, 2));
    var r := Hand(n3, Port(y, 2), Port(x, 0));
    assert r == Reconnect(net, x, y, a, b);
  }

  /** The four wire ends a duplication moves, read before it starts. */
  predicate OuterApart(net: Net, x: nat, y: nat, a: nat, b: nat)
    requires Allocated(net, x) && Allocated(net, y)
  {
    var t1, t2 := net.nodes[Port(x, 1)], net.nodes[Port(x, 2)];
    var t3, t4 := net.nodes[Port(y, 1)], net.nodes[Port(y, 2)];
    && Distinct4(a, b, x, y) && Distinct4(t1, t2, t3, t4)
    && Away(t1, a, b, x, y) && Away(t2, a, b, x, y)
    && Away(t3, a, b, x, y) && Away(t4, a, b, x, y)
  }

  /** A link survives a hand-over that writes neither of its ends. */
  lemma HandKeepsLink(net: Net, from: nat, to: nat, p: nat, q: nat)
    requires Valid(net) && IsWire(net, from) && IsWire(net, to)
    requires Linked(net, p, q)
    requires p != to && p != net.nodes[from] && q != to && q != net.nodes[from]
    ensures Linked(Hand(net, from, to), p, q)
  {
  }

  /** The second step of a duplication, unfolded into its four hand-overs. */
  lemma ReconnectSteps(net: Net, x: nat, y: nat, a: nat, b: nat)
    requires Valid(net)
    requires Allocated(net, x) && Allocated(net, y) && Allocated(net, a) && Allocated(net, b)
    ensures var n1 := Hand(net, Port(x, 1), Port(b, 0));
            var n2 := Hand(n1, Port(x, 2), Port(y, 0));
            var n3 := Hand(n2, Port(y, 1), Port(a, 0));
            Reconnect(net, x, y, a, b) == Hand(n3, Port(y, 2), Port(x, 0))
  {
  }

  /** Each hand-over of the second step of a duplication reads the outer
      neighbour the net had before the step started. */
  lemma ReconnectReads(net: Net, x: nat, y: nat, a: nat, b: nat)
    requires Valid(net)
    requires Allocated(net, x) && Allocated(net, y) && Allocated(net, a) && Allocated(net, b)
    requires OuterApart(net, x, y, a, b)
    ensures var n1 := Hand(net, Port(x, 1), Port(b, 0));
            && n1.nodes[Port(x, 2)] == net.nodes[Port(x, 2)]
            && var n2 := Hand(n1, Port(x, 2), Port(y, 0));
               && n2.nodes[Port(y, 1)] == net.nodes[Port(y, 1)]
               && var n3 := Hand(n2, Port(y, 1), Port(a, 0));
                  n3.nodes[Port(y, 2)] == net.nodes[Port(y, 2)]
  {
    hide Link, Hand, Reconnect;
    PortWired(net, x);
    PortWired(net, y);
    PortWired(net, a);
    PortWired(net, b);
    assert Port(x, 2) != Port(b, 0);
    assert Port(y, 1) != Port(y, 0) && Port(y, 1) != Port(b, 0);
    assert Port(y, 2) != Port(a, 0) && Port(y, 2) != Port(y, 0) && Port(y, 2) != Port(b, 0);
  }

  /** When the four outer neighbours of the pair are distinct ports of other
      nodes, the second step of a duplication wires them to `b.0`, `y.0`,
      `a.0` and `x.0` respectively. */
  lemma ReconnectLinks(net: Net, x: nat, y: nat, a: nat, b: nat)
    requires Valid(net)
    requires Allocated(net, x) && Allocated(net, y) && Allocated(net, a) && Allocated(net, b)
    requires OuterApart(net, x, y, a, b)
    ensures var r := Reconnect(net, x, y, a, b);
            && Linked(r, Port(b, 0), net.nodes[Port(x, 1)]) && Linked(r, Port(y, 0), net.nodes[Port(x, 2)])
            && Linked(r, Port(a, 0), net.nodes[Port(y, 1)]) && Linked(r, Port(x, 0), net.nodes[Port(y, 2)])
  {
    hide Link, Hand, Reconnect;
    PortWired(net, x);
    PortWired(net, y);
    PortWired(net, a);
    PortWired(net, b);
    ReconnectSteps(net, x, y, a, b);
    ReconnectReads(net, x, y, a, b);
    var t1, t2 := net.nodes[Port(x, 1)], net.nodes[Port(x, 2)];
    var t3, t4 := net.nodes[Port(y, 1)], net.nodes[Port(y, 2)];
    var n1 := Hand(net, Port(x, 1), Port(b, 0));
    var n2 := Hand(n1, Port(x, 2), Port(y, 0));
    HandKeepsLink(n1, Port(x, 2), Port(y, 0), Port(b, 0), t1);
    var n3 := Hand(n2, Port(y, 1), Port(a, 0));
    HandKeepsLink(n2, Port(y, 1), Port(a, 0), Port(b, 0), t1);
    HandKeepsLink(n2, Port(y, 1), Port(a, 0), Port(y, 0), t2);
    var r := Hand(n3, Port(y, 2), Port(x, 0));
    HandKeepsLink(n3, Port(y, 2), Port(x, 0), Port(b, 0), t1);
    HandKeepsLink(n3, Port(y, 2), Port(x, 0), Port(y, 0), t2);
    HandKeepsLink(n3, Port(y, 2), Port(x, 0), Port(a, 0), t3);
  }

  /** Under the same conditions the second step of a duplication touches
      nothing but the principal ports of the four nodes and the four moved
      wire ends. */
  lemma ReconnectFrame(net: Net, x: nat, y: nat, a: nat, b: nat)
    requires Valid(net)
    requires Allocated(net, x) && Allocated(net, y) && Allocated(net, a) && Allocated(net, b)
    requires OuterApart(net, x, y, a, b)
    ensures var r := Reconnect(net, x, y, a, b);
            var t1, t2 := net.nodes[Port(x, 1)], net.nodes[Port(x, 2)];
            var t3, t4 := net.nodes[Port(y, 1)], net.nodes[Port(y, 2)];
            forall i | 0 <= i < |net.nodes| && i != t1 && i != t2 && i != t3 && i != t4
                       && i != Port(a, 0) && i != Port(b, 0) && i != Port(x, 0) && i != Port(y, 0) ::
              r.nodes[i] == net.nodes[i]
  {
    hide Link, Hand, Reconnect;
    PortWired(net, x);
    PortWired(net, y);
    PortWired(net, a);
    PortWired(net, b);
    ReconnectSteps(net, x, y, a, b);
    ReconnectReads(net, x, y, a, b);
    var t1, t2 := net.nodes[Port(x, 1)], net.nodes[Port(x, 2)];
    var t3, t4 := net.nodes[Port(y, 1)], net.nodes[Port(y, 2)];
    var n1 := Hand(net, Port(x, 1), Port(b, 0));
    var n2 := Hand(n1, Port(x, 2), Port(y, 0));
    var n3 := Hand(n2, Port(y, 1), Port(a, 0));
    var r := Hand(n3, Port(y, 2), Port(x, 0));
    forall i | 0 <= i < |net.nodes| && i != t1 && i != t2 && i != t3 && i != t4
               && i != Port(a, 0) && i != Port(b, 0) && i != Port(x, 0) && i != Port(y, 0)
      ensures r.nodes[i] == net.nodes[i]
    {
      assert n1.nodes[i] == net.nodes[i];
      assert n2.nodes[i] == n1.nodes[i];
      assert n3.nodes[i] == n2.nodes[i];
    }
  }

  /** Duplication allocates `a` with the kind of `x` and `b` with the kind
      of `y`, and when the four nodes are distinct wires them together:
      a.1-b.1, a.2-y.1, x.1-b.2 and x.2-y.2. */
  lemma DuplicationRewires(net: Net, x: nat, y: nat)
    requires CanRewrite(net, x, y) && Kind(net, x) != Kind(net, y)
    requires Distinct4(FreshPair(net).0, FreshPair(net).1, x, y)
    ensures var r := Rewrite(net, x, y);
            var (a, b) := FreshPair(net);
            && Allocated(r, a) && Allocated(r, b)
            && Kind(r, a) == Kind(net, x) && Kind(r, b) == Kind(net, y)
            && Linked(r, Port(a, 1), Port(b, 1))
            && Linked(r, Port(a, 2), Port(y, 1))
            && Linked(r, Port(x, 1), Port(b, 2))
            && Linked(r, Port(x, 2), Port(y, 2))
  {
    hide Link, Hand, NewNode;
    var f := AllocatePair(net, x, y);
    var n := Reconnect(f.net, x, y, f.a, f.b);
    var r := Interconnect(n, x, y, f.a, f.b);
    assert r == Rewrite(net, x, y);
    ReconnectKeepsKinds(f.net, x, y, f.a, f.b);
    InterconnectKeepsKinds(n, x, y, f.a, f.b);
    InterconnectLinks(n, x, y, f.a, f.b);
    assert r.nodes[Port(f.a, 3)] == n.nodes[Port(f.a, 3)] == f.net.nodes[Port(f.a, 3)];
    assert r.nodes[Port(f.b, 3)] == n.nodes[Port(f.b, 3)] == f.net.nodes[Port(f.b, 3)];
  }

  /** Allocation leaves the auxiliary ports of the pair alone when the new
      nodes are other nodes, so the outer neighbours read after it are the
      original ones. */
  lemma AllocationKeepsOuter(net: Net, x: nat, y: nat)
    requires Valid(net) && Allocated(net, x) && Allocated(net, y) && RoomForTwo(net)
    requires Distinct4(FreshPair(net).0, FreshPair(net).1, x, y)
    ensures var f := AllocatePair(net, x, y);
            && f.net.nodes[Port(x, 1)] == net.nodes[Port(x, 1)]
            && f.net.nodes[Port(x, 2)] == net.nodes[Port(x, 2)]
            && f.net.nodes[Port(y, 1)] == net.nodes[Port(y, 1)]
            && f.net.nodes[Port(y, 2)] == net.nodes[Port(y, 2)]
  {
    hide NewNode;
  }

  /** When the four outer neighbours of the pair are distinct ports of
      other nodes, duplication hands them to the principal ports: the
      neighbour of x.1 to b.0, of x.2 to y.0, of y.1 to a.0, of y.2 to x.0. */
  lemma DuplicationMovesNeighbours(net: Net, x: nat, y: nat)
    requires CanRewrite(net, x, y) && Kind(net, x) != Kind(net, y)
    requires OuterApart(net, x, y, FreshPair(net).0, FreshPair(net).1)
    ensures var r := Rewrite(net, x, y);
            var (a, b) := FreshPair(net);
            && Linked(r, Port(b, 0), net.nodes[Port(x, 1)]) && Linked(r, Port(y, 0), net.nodes[Port(x, 2)])
            && Linked(r, Port(a, 0), net.nodes[Port(y, 1)]) && Linked(r, Port(x, 0), net.nodes[Port(y, 2)])
  {
    hide Link, Hand, NewNode;
    var f := AllocatePair(net, x, y);
    var n := Reconnect(f.net, x, y, f.a, f.b);
    var r := Interconnect(n, x, y, f.a, f.b);
    assert r == Rewrite(net, x, y);
    AllocationKeepsOuter(net, x, y);
    assert OuterApart(f.net, x, y, f.a, f.b);
    ReconnectLinks(f.net, x, y, f.a, f.b);
    var t1, t2 := net.nodes[Port(x, 1)], net.nodes[Port(x, 2)];
    var t3, t4 := net.nodes[Port(y, 1)], net.nodes[Port(y, 2)];
    InterconnectKeepsLink(n, x, y, f.a, f.b, Port(f.b, 0), t1);
    InterconnectKeepsLink(n, x, y, f.a, f.b, Port(y, 0), t2);
    InterconnectKeepsLink(n, x, y, f.a, f.b, Port(f.a, 0), t3);
    InterconnectKeepsLink(n, x, y, f.a, f.b, Port(x, 0), t4);
  }

  /** Entries outside the four nodes of a duplication, other than the four
      outer wire ends `orig` had, still read as in `orig`. */
  predicate OuterKept(orig: Net, n: Net, x: nat, y: nat, a: nat, b: nat)
    requires Allocated(orig, x) && Allocated(orig, y)
  {
    var t1, t2 := orig.nodes[Port(x, 1)], orig.nodes[Port(x, 2)];
    var t3, t4 := orig.nodes[Port(y, 1)], orig.nodes[Port(y, 2)];
    && |orig.nodes| <= |n.nodes|
    && forall i | 0 <= i < |orig.nodes| && i != t1 && i != t2 && i != t3 && i != t4 && Away(i, a, b, x, y) ::
         n.nodes[i] == orig.nodes[i]
  }

  /** Entry `f` holds what it held in `orig`, or a port of one of the four
      nodes. */
  predicate Tame(orig: Net, n: Net, f: nat, x: nat, y: nat, a: nat, b: nat)
  {
    f < |orig.nodes| <= |n.nodes| && (n.nodes[f] == orig.nodes[f] || !Away(n.nodes[f], a, b, x, y))
  }

  /** Every auxiliary entry of the pair is tame. */
  predicate AllTame(orig: Net, n: Net, x: nat, y: nat, a: nat, b: nat)
    requires Allocated(orig, x) && Allocated(orig, y)
  {
    && Tame(orig, n, Port(x, 1), x, y, a, b) && Tame(orig, n, Port(x, 2), x, y, a, b)
    && Tame(orig, n, Port(y, 1), x, y, a, b) && Tame(orig, n, Port(y, 2), x, y, a, b)
  }

  /** After the two allocations of a duplication a real port entry holds
      what it held before, or is self-looped. */
  lemma AllocationEntry(net: Net, x: nat, y: nat, p: nat)
    requires Valid(net) && Allocated(net, x) && Allocated(net, y) && RoomForTwo(net)
    requires p < |net.nodes| && p % 4 != 3
    ensures var f := AllocatePair(net, x, y);
            f.net.nodes[p] == net.nodes[p] || f.net.nodes[p] == p
  {
    hide NewNode;
    KindIsWord(net, x);
    RoomForBoth(net, Kind(net, x));
    var A := NewNode(net, Kind(net, x));
    KindIsWord(A.net, y);
    var B := NewNode(A.net, Kind(A.net, y));
    assert AllocatePair(net, x, y).net == B.net;
    NewNodeEntry(net, Kind(net, x), p);
    NewNodeEntry(A.net, Kind(A.net, y), p);
  }

  /** Allocating the two new nodes leaves every auxiliary entry of the pair
      either as it was or self-looped, and touches nothing outside the new
      nodes. */
  lemma AllocationTame(net: Net, x: nat, y: nat)
    requires Valid(net) && Allocated(net, x) && Allocated(net, y) && RoomForTwo(net)
    ensures var f := AllocatePair(net, x, y);
            OuterKept(net, f.net, x, y, f.a, f.b) && AllTame(net, f.net, x, y, f.a, f.b)
  {
    hide NewNode, AllocatePair;
    var f := AllocatePair(net, x, y);
    AllocationEntry(net, x, y, Port(x, 1));
    AllocationEntry(net, x, y, Port(x, 2));
    AllocationEntry(net, x, y, Port(y, 1));
    AllocationEntry(net, x, y, Port(y, 2));
    assert InNode(Port(x, 1), x) && InNode(Port(x, 2), x);
    assert InNode(Port(y, 1), y) && InNode(Port(y, 2), y);
  }

  /** A hand-over from an auxiliary entry of the pair to a principal port of
      the four nodes keeps both facts: the entry it reads is tame, so it
      writes only inside the four nodes or at an outer wire end. */
  lemma HandTame(orig: Net, n: Net, from: nat, to: nat, x: nat, y: nat, a: nat, b: nat)
    requires Valid(n) && IsWire(n, from) && IsWire(n, to)
    requires Allocated(orig, x) && Allocated(orig, y)
    requires from in {Port(x, 1), Port(x, 2), Port(y, 1), Port(y, 2)}
    requires to % 4 == 0 && !Away(to, a, b, x, y)
    requires OuterKept(orig, n, x, y, a, b) && AllTame(orig, n, x, y, a, b)
    ensures OuterKept(orig, Hand(n, from, to), x, y, a, b)
    ensures AllTame(orig, Hand(n, from, to), x, y, a, b)
  {
    var r := Hand(n, from, to);
    var v := n.nodes[from];
    assert Tame(orig, n, from, x, y, a, b);
    forall p | p in {Port(x, 1), Port(x, 2), Port(y, 1), Port(y, 2)}
      ensures Tame(orig, r, p, x, y, a, b)
    {
      assert Tame(orig, n, p, x, y, a, b);
      assert p != to;
    }
  }

  /** The four hand-overs keep both facts. */
  lemma ReconnectTame(orig: Net, n: Net, x: nat, y: nat, a: nat, b: nat)
    requires Valid(n)
    requires Allocated(n, x) && Allocated(n, y) && Allocated(n, a) && Allocated(n, b)
    requires Allocated(orig, x) && Allocated(orig, y)
    requires OuterKept(orig, n, x, y, a, b) && AllTame(orig, n, x, y, a, b)
    ensures OuterKept(orig, Reconnect(n, x, y, a, b), x, y, a, b)
  {
    hide Link, Hand, Reconnect, OuterKept, AllTame;
    ReconnectSteps(n, x, y, a, b);
    PortWired(n, x);
    PortWired(n, y);
    PortWired(n, a);
    PortWired(n, b);
    assert !Away(Port(b, 0), a, b, x, y) && !Away(Port(y, 0), a, b, x, y);
    assert !Away(Port(a, 0), a, b, x, y) && !Away(Port(x, 0), a, b, x, y);
    var n1 := Hand(n, Port(x, 1), Port(b, 0));
    HandTame(orig, n, Port(x, 1), Port(b, 0), x, y, a, b);
    var n2 := Hand(n1, Port(x, 2), Port(y, 0));
    HandTame(orig, n1, Port(x, 2), Port(y, 0), x, y, a, b);
    var n3 := Hand(n2, Port(y, 1), Port(a, 0));
    HandTame(orig, n2, Port(y, 1), Port(a, 0), x, y, a, b);
    HandTame(orig, n3, Port(y, 2), Port(x, 0), x, y, a, b);
  }

  /** The last four links write only auxiliary ports of the four nodes, so
      they keep the entries outside them. */
  lemma InterconnectKeepsOuter(orig: Net, n: Net, x: nat, y: nat, a: nat, b: nat)
    requires Valid(n)
    requires Allocated(n, x) && Allocated(n, y) && Allocated(n, a) && Allocated(n, b)
    requires Allocated(orig, x) && Allocated(orig, y)
    requires OuterKept(orig, n, x, y, a, b)
    ensures OuterKept(orig, Interconnect(n, x, y, a, b), x, y, a, b)
  {
    hide Link, Interconnect;
    InterconnectFrame(n, x, y, a, b);
    var r := Interconnect(n, x, y, a, b);
    forall i | 0 <= i < |n.nodes| && Away(i, a, b, x, y)
      ensures r.nodes[i] == n.nodes[i]
    {
      AuxInNode(i, a);
      AuxInNode(i, b);
      AuxInNode(i, x);
      AuxInNode(i, y);
    }
  }

  /** A duplication is its three steps in order. */
  lemma DuplicationSteps(net: Net, x: nat, y: nat)
    requires CanRewrite(net, x, y) && Kind(net, x) != Kind(net, y)
    ensures var f := AllocatePair(net, x, y);
            Rewrite(net, x, y) == Interconnect(Reconnect(f.net, x, y, f.a, f.b), x, y, f.a, f.b)
  {
    hide Link, Hand, NewNode, Reconnect, Interconnect, AllocatePair;
  }

  /** Duplication changes no entry outside the four nodes other than the
      four outer wire ends, whatever those ends are. */
  lemma DuplicationFrame(net: Net, x: nat, y: nat)
    requires CanRewrite(net, x, y) && Kind(net, x) != Kind(net, y)
    ensures var r := Rewrite(net, x, y);
            var (a, b) := FreshPair(net);
            var t1, t2 := net.nodes[Port(x, 1)], net.nodes[Port(x, 2)];
            var t3, t4 := net.nodes[Port(y, 1)], net.nodes[Port(y, 2)];
            forall i | 0 <= i < |net.nodes| && i != t1 && i != t2 && i != t3 && i != t4
                       && !InNode(i, a) && !InNode(i, b) && !InNode(i, x) && !InNode(i, y) ::
              r.nodes[i] == net.nodes[i]
  {
    hide Link, Hand, NewNode, Reconnect, Interconnect, AllocatePair, Rewrite;
    DuplicationSteps(net, x, y);
    var f := AllocatePair(net, x, y);
    var n := Reconnect(f.net, x, y, f.a, f.b);
    var r := Interconnect(n, x, y, f.a, f.b);
    AllocationTame(net, x, y);
    ReconnectTame(net, f.net, x, y, f.a, f.b);
    InterconnectKeepsOuter(net, n, x, y, f.a, f.b);
    assert OuterKept(net, r, x, y, f.a, f.b);
  }

  /** When the auxiliary ports of `y` are wired to each other, the four
      hand-overs send x's neighbours to b.0 and y.0, and the third hand-over
      leaves a.0 on y.2, which the fourth then wires to x.0. */
  lemma ReconnectThroughLoopOfY(net: Net, x: nat, y: nat, a: nat, b: nat)
    requires Valid(net)
    requires Allocated(net, x) && Allocated(net, y) && Allocated(net, a) && Allocated(net, b)
    requires Distinct4(a, b, x, y) && Linked(net, Port(y, 1), Port(y, 2))
    requires var t1, t2 := net.nodes[Port(x, 1)], net.nodes[Port(x, 2)];
             t1 != t2 && Away(t1, a, b, x, y) && Away(t2, a, b, x, y)
    ensures var r := Reconnect(net, x, y, a, b);
            && Linked(r, Port(b, 0), net.nodes[Port(x, 1)]) && Linked(r, Port(y, 0), net.nodes[Port(x, 2)])
            && Linked(r, Port(a, 0), Port(x, 0))
  {
    hide Link, Hand, Reconnect;
    PortWired(net, x);
    PortWired(net, y);
    PortWired(net, a);
    PortWired(net, b);
    ReconnectSteps(net, x, y, a, b);
    var t1, t2 := net.nodes[Port(x, 1)], net.nodes[Port(x, 2)];
    var n1 := Hand(net, Port(x, 1), Port(b, 0));
    assert n1.nodes[Port(x, 2)] == t2;
    var n2 := Hand(n1, Port(x, 2), Port(y, 0));
    HandKeepsLink(n1, Port(x, 2), Port(y, 0), Port(b, 0), t1);
    assert n2.nodes[Port(y, 1)] == Port(y, 2);
    var n3 := Hand(n2, Port(y, 1), Port(a, 0));
    HandKeepsLink(n2, Port(y, 1), Port(a, 0), Port(b, 0), t1);
    HandKeepsLink(n2, Port(y, 1), Port(a, 0), Port(y, 0), t2);
    assert n3.nodes[Port(y, 2)] == Port(a, 0);
    var r := Hand(n3, Port(y, 2), Port(x, 0));
    HandKeepsLink(n3, Port(y, 2), Port(x, 0), Port(b, 0), t1);
    HandKeepsLink(n3, Port(y, 2), Port(x, 0), Port(y, 0), t2);
  }

  /** The mirror case: when the auxiliary ports of `x` are wired to each
      other, the first hand-over leaves b.0 on x.2, the second wires it to
      y.0, and y's neighbours go to a.0 and x.0. */
  lemma ReconnectThroughLoopOfX(net: Net, x: nat, y: nat, a: nat, b: nat)
    requires Valid(net)
    requires Allocated(net, x) && Allocated(net, y) && Allocated(net, a) && Allocated(net, b)
    requires Distinct4(a, b, x, y) && Linked(net, Port(x, 1), Port(x, 2))
    requires var t3, t4 := net.nodes[Port(y, 1)], net.nodes[Port(y, 2)];
             t3 != t4 && Away(t3, a, b, x, y) && Away(t4, a, b, x, y)
    ensures var r := Reconnect(net, x, y, a, b);
            && Linked(r, Port(b, 0), Port(y, 0))
            && Linked(r, Port(a, 0), net.nodes[Port(y, 1)]) && Linked(r, Port(x, 0), net.nodes[Port(y, 2)])
  {
    hide Link, Hand, Reconnect;
    PortWired(net, x);
    PortWired(net, y);
    PortWired(net, a);
    PortWired(net, b);
    ReconnectSteps(net, x, y, a, b);
    var t3, t4 := net.nodes[Port(y, 1)], net.nodes[Port(y, 2)];
    var n1 := Hand(net, Port(x, 1), Port(b, 0));
    assert n1.nodes[Port(x, 2)] == Port(b, 0);
    var n2 := Hand(n1, Port(x, 2), Port(y, 0));
    assert n2.nodes[Port(y, 1)] == t3;
    var n3 := Hand(n2, Port(y, 1), Port(a, 0));
    HandKeepsLink(n2, Port(y, 1), Port(a, 0), Port(b, 0), Port(y, 0));
    assert n3.nodes[Port(y, 2)] == t4;
    var r := Hand(n3, Port(y, 2), Port(x, 0));
    HandKeepsLink(n3, Port(y, 2), Port(x, 0), Port(b, 0), Port(y, 0));
    HandKeepsLink(n3, Port(y, 2), Port(x, 0), Port(a, 0), t3);
  }

  /** The eraser case of duplication: when the auxiliary ports of `y` are
      wired to each other (as those of every eraser are), x's neighbours
      end up on b.0 and y.0, and the two principal ports a.0 and x.0 are
      wired to each other. */
  lemma DuplicationThroughLoopOfY(net: Net, x: nat, y: nat)
    requires CanRewrite(net, x, y) && Kind(net, x) != Kind(net, y)
    requires Distinct4(FreshPair(net).0, FreshPair(net).1, x, y)
    requires Linked(net, Port(y, 1), Port(y, 2))
    requires var (a, b) := FreshPair(net);
             var t1, t2 := net.nodes[Port(x, 1)], net.nodes[Port(x, 2)];
             t1 != t2 && Away(t1, a, b, x, y) && Away(t2, a, b, x, y)
    ensures var r := Rewrite(net, x, y);
            var (a, b) := FreshPair(net);
            && Linked(r, Port(b, 0), net.nodes[Port(x, 1)]) && Linked(r, Port(y, 0), net.nodes[Port(x, 2)])
            && Linked(r, Port(a, 0), Port(x, 0))
  {
    hide Link, Hand, NewNode, Reconnect, Interconnect, AllocatePair, Rewrite;
    DuplicationSteps(net, x, y);
    var f := AllocatePair(net, x, y);
    var n := Reconnect(f.net, x, y, f.a, f.b);
    AllocationKeepsOuter(net, x, y);
    ReconnectThroughLoopOfY(f.net, x, y, f.a, f.b);
    var t1, t2 := net.nodes[Port(x, 1)], net.nodes[Port(x, 2)];
    InterconnectKeepsLink(n, x, y, f.a, f.b, Port(f.b, 0), t1);
    InterconnectKeepsLink(n, x, y, f.a, f.b, Port(y, 0), t2);
    InterconnectFrame(n, x, y, f.a, f.b);
    assert !AuxOf(Port(f.a, 0), x) && !AuxOf(Port(x, 0), x);
  }

  /** The mirror eraser case: when the auxiliary ports of `x` are wired to
      each other, b.0 and y.0 are wired to each other and y's neighbours
      end up on a.0 and x.0. */
  lemma DuplicationThroughLoopOfX(net: Net, x: nat, y: nat)
    requires CanRewrite(net, x, y) && Kind(net, x) != Kind(net, y)
    requires Distinct4(FreshPair(net).0, FreshPair(net).1, x, y)
    requires Linked(net, Port(x, 1), Port(x, 2))
    requires var (a, b) := FreshPair(net);
             var t3, t4 := net.nodes[Port(y, 1)], net.nodes[Port(y, 2)];
             t3 != t4 && Away(t3, a, b, x, y) && Away(t4, a, b, x, y)
    ensures var r := Rewrite(net, x, y);
            var (a, b) := FreshPair(net);
            && Linked(r, Port(b, 0), Port(y, 0))
            && Linked(r, Port(a, 0), net.nodes[Port(y, 1)]) && Linked(r, Port(x, 0), net.nodes[Port(y, 2)])
  {
    hide Link, Hand, NewNode, Reconnect, Interconnect, AllocatePair, Rewrite;
    DuplicationSteps(net, x, y);
    var f := AllocatePair(net, x, y);
    var n := Reconnect(f.net, x, y, f.a, f.b);
    AllocationKeepsOuter(net, x, y);
    ReconnectThroughLoopOfX(f.net, x, y, f.a, f.b);
    var t3, t4 := net.nodes[Port(y, 1)], net.nodes[Port(y, 2)];
    InterconnectKeepsLink(n, x, y, f.a, f.b, Port(f.a, 0), t3);
    InterconnectKeepsLink(n, x, y, f.a, f.b, Port(x, 0), t4);
    InterconnectFrame(n, x, y, f.a, f.b);
    assert !AuxOf(Port(f.b, 0), y) && !AuxOf(Port(y, 0), y);
  }
}
